=== FILE: README.md ===
# Hospital records cleaning — a verified model

This project models the cleaning core of the Hospital_Records_cleaning repository in Dafny. The
repository takes a raw table of hospital records and cleans it step by step. It normalises the
column names, turns empty-like strings into missing values, drops duplicate rows and trims text.
It narrows the gender column to male/female and keeps only ages in [0, 120]. It parses the
date-like columns, clears admission/discharge pairs in the wrong order, and keeps phone numbers
only when they have 10 to 15 digits. It converts mostly-numeric text columns to numbers and caps
numeric outliers at the IQR fences. Finally it imputes medians and "unknown", and reports the
missing values before and after. The same logic exists twice: `clean_hospital_records` in
cleaning.py, and the inline steps of `main()` in main.py.

The table is a sequence of named columns of cells. A cell is `Missing`, `Text`, `Num` (an exact
`real`) or `Date` (nanoseconds since the epoch). Each column carries a kind tag (text, numeric,
date) that plays the role of the pandas dtype, and `TableValid` requires every cell to fit its
column's kind. Library parsers and formatters are a `Lib` value passed in as a parameter:
`pd.to_numeric`, `pd.to_datetime`, and `str()` of a number or timestamp. Everything proved
holds for every choice of those functions.

Modules, one per file:

- `Wrappers`: `Option`.
- `Strings`: the ASCII behaviour of `str.strip`, `str.lower`, the regexes `\s+` and `\D`, and
  the substring test.
- `Tables`: cells, columns, rows and cell conversions.
- `Quantiles`: pandas' linear-interpolation quantile and the median.
- `Helpers`: `clean_column_name`, `clean_phone`, `cap_outliers_iqr`, `find_first_existing` and
  `find_cols`.
- `Reports`: both `missing_report` functions.
- `Steps`: each cleaning step as a function, with its properties.
- `Stages`: each step lifted to the whole table, and the two pipelines as compositions of the
  steps. Each `Frame` method is proved to compute its stage.
- `Frames`: a `Frame` class whose methods rewrite the table in place, looping over the columns
  where the source loops.
- `Pipelines`: the two entry points, each proved to return the composition of its stages.
- `Samples`: worked examples as lemmas.

A text column is converted to numbers when `converted.notna().mean()` is strictly above 0.70.
That is the share of all cells that coerce, missing cells included. The model states it as
`10 * coerced > 7 * rows`, so an empty column is never converted.

## Model

| member | source | states |
|---|---|---|
| Strings.Lower | cleaning.py:13 | every ASCII capital is lowered; every other character is kept; the length is unchanged |
| Strings.Strip | cleaning.py:13 | `str.strip()`; its contract is stated by `StripIsWhitespaceTrim` and `StripEnds`: the result is the input with exactly its leading and trailing whitespace cut off |
| Strings.StripIsWhitespaceTrim | cleaning.py:13 | `strip()` gives a contiguous slice of the input; what it removes is whitespace, and the result neither starts nor ends with whitespace |
| Strings.StripEnds | cleaning.py:13 | what `strip()` returns neither starts nor ends with whitespace |
| Strings.CollapseSpaces | cleaning.py:14 | after `re.sub(r"\s+", "_", ...)` no whitespace remains |
| Strings.TrimStartRun | cleaning.py:14 | dropping leading whitespace removes a whole run of it and stops at the next character |
| Strings.CollapseLeadingRun | cleaning.py:14 | a leading maximal run of whitespace becomes one "_" and the rest is collapsed in turn |
| Strings.CollapseRun | cleaning.py:14 | a whitespace-free prefix is kept and the maximal run of whitespace after it becomes one "_"; with `CollapseSpacesAppend` this fixes the result for every input |
| Strings.CollapseOneSpace | main.py:47 | two whitespace-free words joined by one blank become the words joined by "_" |
| Strings.KeepNameChars | cleaning.py:15 | after `re.sub(r"[^a-z0-9_]", "", ...)` only `[a-z0-9_]` remains; the result is no longer than the input, and a string already in that alphabet is unchanged |
| Strings.KeepNameCharsOne | cleaning.py:15 | one character is kept exactly when it is in `[a-z0-9_]` |
| Strings.KeepNameCharsAppend | cleaning.py:15 | the filter commutes with concatenation; with `KeepNameCharsOne` it keeps exactly the name characters, in order |
| Strings.Digits | cleaning.py:31 | `re.sub(r"\D", "", s)`; its contract is stated by `DigitsAreDigits`, `DigitsOfDigits`, `DigitsOfNonDigits` and `DigitsAppend`, which together fix it as the digits of s in order |
| Strings.DigitsAreDigits | cleaning.py:31 | `re.sub(r"\D", "", s)` holds only digits and is no longer than s |
| Strings.DigitsOfDigits | main.py:59 | removing non-digits from an all-digit string changes nothing |
| Strings.DigitsOfNonDigits | main.py:59 | removing non-digits from a string without digits leaves nothing |
| Strings.DigitsAppend | main.py:59 | removing non-digits distributes over concatenation, so the digits of a value appear in their original order |
| Strings.Contains | main.py:53 | the substring test `k in s`; `ContainsAt` states that it holds exactly when k occurs at some position of s |
| Strings.ContainsAt | main.py:53 | the substring test `k in s` holds exactly when k occurs at some position of s |
| Strings.AbsentCharNotContained | cleaning.py:117 | a name lacking one of a keyword's characters does not contain the keyword |
| Strings.ContainsAny | cleaning.py:117 | `any(k in c for k in keywords)`: some keyword is a substring of the name, as `ContainsAt` characterises the substring test; the same test selects phone columns at cleaning.py:127 and feeds `find_cols` at main.py:53 |
| Tables.IndexOf | cleaning.py:112-113 | `df[name]` selects the first column with that name |
| Tables.ToNumeric | cleaning.py:113 | `pd.to_numeric(errors="coerce")` yields a number or missing: a string becomes the number the parser reads from it, or missing when it reads none; missing stays missing, numbers are unchanged and a timestamp becomes its numeric value |
| Tables.ToDatetime | cleaning.py:119 | `pd.to_datetime(errors="coerce")` yields a timestamp or missing: a string or a number becomes the timestamp the parser reads from it, or missing when it reads none; missing stays missing and timestamps are unchanged |
| Tables.NumValues | cleaning.py:39 | `dropna()` of a numeric column: their number plus the missing count is the column length; x is among them iff the column holds Num(x) |
| Tables.NumValuesCounts | cleaning.py:39 | each value x occurs in `dropna()` exactly as many times as the column holds Num(x) |
| Tables.MissingCount | cleaning.py:21 | `isna().sum()`: zero iff no cell is missing, the full length iff every cell is missing |
| Tables.MissingCountExact | cleaning.py:21 | `isna().sum()` is exactly the number of missing cells |
| Quantiles.Sort | cleaning.py:42-43 | the values `quantile` ranks: sorted, a permutation of the input |
| Quantiles.Interpolate | cleaning.py:42-43 | linear interpolation at a position lies between the two neighbouring order statistics, and equals the order statistic at an integer position |
| Quantiles.InterpolateMonotone | cleaning.py:42-43 | interpolation over sorted values is monotone in the position |
| Quantiles.QuantileSorted | cleaning.py:42-43 | a quantile of sorted values lies between their first and last |
| Quantiles.QuantileMonotone | cleaning.py:42-44 | the 0.25-quantile never exceeds the 0.75-quantile, so the IQR is never negative |
| Quantiles.Quantile | main.py:68-69 | `Series.quantile(p)` lies between the smallest and the largest value |
| Quantiles.Median | cleaning.py:147 | `Series.median()`; its contract is stated by `MedianOfValues`, `MedianOdd` and `MedianEven` |
| Quantiles.MedianOfValues | cleaning.py:147 | the median lies between the smallest and largest value; it is one of the values for an odd count and the mean of the two middle sorted values for an even count |
| Quantiles.MedianOdd | cleaning.py:147 | for an odd count the 0.5 quantile is one of the values |
| Quantiles.MedianEven | cleaning.py:147 | for an even count of sorted values the 0.5 quantile is the mean of the two middle ones |
| Helpers.CleanColumnName | cleaning.py:11-16 | a cleaned name holds only `[a-z0-9_]`, in particular no whitespace |
| Helpers.CleanNames | cleaning.py:88 | the renamed header has one name per column, the j-th being the cleaned j-th name |
| Helpers.CleanColumnNameIdempotent | main.py:45-49 | cleaning an already cleaned name changes nothing |
| Samples.CleanTwoWordHeader | main.py:45-49 | a padded two-word header such as " Patient ID " becomes the lower-cased words joined by "_" ("patient_id") |
| Helpers.CleanPhone | cleaning.py:27-34 | missing stays missing; otherwise the result is the value's digits in order when there are 10 to 15 of them, and missing otherwise |
| Samples.CleanPhoneWithExtension | main.py:56-62 | "(AAA) BBB-CCCC ext E" becomes "AAABBBCCCCE", e.g. "(555) 123-4567 ext 2" becomes "55512345672" |
| Samples.CleanPhoneDropsShort | cleaning.py:32-33 | a seven-digit number such as "555-1234" becomes missing |
| Helpers.Fences | cleaning.py:39-50 | fences exist exactly when there are at least 5 values and Q1 != Q3 (`HasSpread`); then they are (Q1 - 1.5 IQR, Q3 + 1.5 IQR) with Q1 < Q3 |
| Helpers.Clip | cleaning.py:51 | `Series.clip(lower, upper)` on one value: with lower <= upper the result lies in [lower, upper], and a value already inside is kept |
| Helpers.CapOutliersIqr | cleaning.py:37-51 | length kept; an uncapped column is unchanged; missing cells stay missing; with fences, every value lies within them, values inside are unchanged, and values below or above become the lower or upper fence |
| Helpers.FindFirstExisting | cleaning.py:54-59 | None exactly when no candidate names a column; otherwise a column name that is the earliest candidate naming a column |
| Helpers.FindCols | main.py:52-53 | exactly the names containing some keyword, with their multiplicities, as a subsequence in the original order |
| Reports.Percent | cleaning.py:22 | `(miss / len(df)) * 100`: absent exactly for a table without rows; otherwise the percentage times the row count is 100 times the missing count, and it lies in [0, 100] when the count is at most the row count |
| Reports.Round2 | cleaning.py:23 | `round(2)`: a multiple of 1/100 within 0.005 of the input, and a percentage stays in [0, 100] |
| Reports.PerColumn | cleaning.py:21-23 | one entry per column, in column order, with its name, missing count and percentage (rounded for cleaning.py) |
| Reports.SortDesc | cleaning.py:24 | the sorted report is a permutation of its input, ordered by non-increasing key |
| Reports.MissingReport | cleaning.py:19-24 | the cleaning.py report; its contract is stated by `MissingReportSpec` |
| Reports.MissingReportByCount | main.py:38-42 | the main.py report; its contract is stated by `MissingReportByCountSpec` |
| Reports.MissingReportSpec | cleaning.py:19-24 | the cleaning.py report has exactly one entry per column, each count at most the row count and each percentage in [0, 100], ordered by non-increasing percentage |
| Reports.MissingReportByCountSpec | main.py:38-42 | the main.py report has exactly one entry per column, each count at most the row count, ordered by non-increasing count |
| Steps.ReplaceEmptyLike | cleaning.py:91-92 | a cell becomes missing iff it is missing or a string exactly equal to one of the ten empty-like tokens; every other cell is unchanged |
| Steps.ReplaceEmptyColumn | main.py:146-147 | the replacement applies to every cell and keeps the column's name, kind and length |
| Samples.EmptyLikeIsExact | cleaning.py:91-92 | token matching is case- and blank-sensitive: "n/a" goes, "N/A" and "  " stay |
| Steps.KeptIndices | cleaning.py:95 | the surviving positions are exactly the first occurrences, in increasing order |
| Steps.Dedup | cleaning.py:95 | `drop_duplicates()` on the rows; its contract is stated by `DedupSpec` |
| Steps.DedupSpec | main.py:153-154 | no two output rows are equal, every input row equals some output row, every output row is an input row, and survivors are first occurrences in their original order |
| Steps.DuplicatedCount | main.py:153 | `duplicated().sum()`; `DuplicatedCountSpec` states that it plus the number of rows `drop_duplicates()` keeps is the row count |
| Steps.DuplicatedCountSpec | main.py:153-154 | `duplicated().sum()` plus the number of surviving rows is the input row count |
| Steps.SelectRows | cleaning.py:95 | keeping positions column by column keeps names, kinds and the chosen cells |
| Steps.RowsOfDedup | cleaning.py:95 | selecting the surviving positions column by column yields the deduplicated rows |
| Steps.TrimCell | cleaning.py:100 | a missing cell stays missing; a string is stripped |
| Steps.TrimColumn | cleaning.py:98-100 | text columns are trimmed cell by cell; other columns are unchanged |
| Steps.StripIdempotent | main.py:163 | trimming twice is trimming once |
| Steps.GenderOf | cleaning.py:105-109 | the gender map: "male" exactly for m/male/man, "female" exactly for f/female/woman, missing exactly for every other string |
| Steps.GenderCell | cleaning.py:105-109 | the result is "male", "female" or missing; it is "male" iff the lower-cased value is m/male/man and "female" iff it is f/female/woman; missing stays missing |
| Steps.GenderColumn | main.py:199 | the chosen column becomes a text column of only "male", "female" and missing |
| Samples.GenderSamples | main.py:191-199 | "Woman" becomes "female", "M" becomes "male", "other" becomes missing |
| Steps.AgeCell | cleaning.py:113-114 | the result is missing or a number in [0, 120]; a coercible in-range value keeps its numeric value, and anything else becomes missing |
| Steps.AgeColumn | main.py:209-210 | the age column becomes numeric with every cell cleaned |
| Steps.DateColumn | cleaning.py:117-119 | a column whose name contains date/admission/discharge/dob becomes a date column of parsed cells; every other column is unchanged |
| Steps.ClearInconsistentDates | cleaning.py:122-124 | a row where both dates are present and discharge precedes admission gets both cleared; every other row keeps both cells |
| Steps.ClearedDatesConsistent | cleaning.py:123-124 | after the check no row has its discharge before its admission |
| Steps.ClearStaysTable | cleaning.py:122-124 | clearing the inconsistent stays leaves the names and the ages as they were and makes every row's stay consistent |
| Steps.PhoneColumn | cleaning.py:127-129 | a column whose name contains phone/mobile/contact gets `clean_phone` in every cell; every other column is unchanged |
| Steps.Coerced | cleaning.py:134 | the coerced column has one `to_numeric` result per cell |
| Steps.MostlyNumeric | cleaning.py:135 | `converted.notna().mean() > 0.70`; `ConvertNumericSpec` states it as: non-empty and more than 70% of all cells coerce |
| Steps.ConvertNumericColumn | cleaning.py:132-136 | keeps the name and the length and keeps cells fitting the column type; `ConvertNumericSpec` states when the column is converted and what it then holds |
| Steps.ConvertNumericSpec | cleaning.py:132-136 | a text column is converted iff it is non-empty and the share of cells that coerce exceeds 0.70, strictly; a converted column holds the coerced cells and fewer than 30% of them are missing; any other column is untouched |
| Steps.CapColumn | cleaning.py:139-142 | numeric columns whose name lacks "id" are capped; every other column is unchanged |
| Steps.CapKeepsRange | main.py:250-252 | capping never moves a value out of a range that held all the column's values |
| Steps.ImputeSpec | cleaning.py:146-151 | text columns end with no missing cell, every text gap holding "unknown", and numeric columns with a value end with none either; a filled numeric cell holds the median, which lies between the column's smallest and largest value; present cells are unchanged; date columns and all-missing numeric columns are unchanged |
| Steps.FillNumeric | cleaning.py:146-147 | `fillna(median)` on a numeric column: keeps name, kind and length and keeps cells fitting; `FillNumericSpec` states what each gap becomes |
| Steps.FillText | cleaning.py:150-151 | `fillna("unknown")` on a text column: keeps name, kind and length and keeps cells fitting; `FillTextSpec` states what each gap becomes |
| Steps.FillNumericSpec | cleaning.py:146-147 | a numeric column with a value has every gap filled with its median, which lies between its smallest and largest value; present cells are kept; other columns are unchanged |
| Steps.FillTextSpec | cleaning.py:150-151 | a text column has every gap filled with "unknown" and no gap left; present cells are kept; other columns are unchanged |
| Steps.FillKeepsRange | cleaning.py:146-147 | median filling keeps every value inside a range that held them all |
| Steps.AgeNameFacts | cleaning.py:117-141 | "age" is neither date-like nor phone-like and does not contain "id" |
| Steps.StaysConsistentKept | cleaning.py:127-151 | steps that introduce no timestamp cannot break admission/discharge consistency |
| Steps.PhoneKeepsDates | cleaning.py:127-129 | phone cleaning introduces no timestamp |
| Steps.ConvertKeepsDates | cleaning.py:132-136 | numeric conversion introduces no timestamp |
| Steps.ConvertTable | cleaning.py:132-136 | converting the mostly-numeric text columns keeps every name, keeps plausible ages plausible and consistent stays consistent |
| Steps.CapKeepsDates | cleaning.py:139-142 | capping introduces no timestamp |
| Steps.FillKeepsDates | cleaning.py:146-151 | imputation introduces no timestamp |
| Steps.ImputeTable | cleaning.py:146-151 | after imputation no text column has a gap and each numeric column is complete or entirely missing; ages stay plausible and stays stay consistent |
| Steps.ImputeKeepsShape | cleaning.py:146-151 | imputation keeps every column name and every cell fitting its column's type |
| Steps.ImputeKeepsAges | cleaning.py:146-147 | median imputation keeps every age within [0, 120] |
| Steps.ImputeLeavesNoGaps | cleaning.py:146-151 | after imputation no text column has a gap and each numeric column is complete or entirely missing |
| Stages.Renamed | cleaning.py:88 | every column takes its cleaned name and keeps its cells; the header is `CleanNames` of the old one; a well-formed table stays well-formed |
| Stages.Replaced | cleaning.py:91-92 | every column has its empty-like cells replaced; names are kept; a well-formed table stays well-formed |
| Stages.Deduplicated | cleaning.py:95 | the rows of the result are exactly `Dedup` of the input rows, and the result is a well-formed table of that many rows |
| Stages.Trimmed | cleaning.py:97-100 | every column is trimmed as `TrimColumn` says; names are kept; a well-formed table stays well-formed |
| Stages.Gendered | cleaning.py:103-109 | step 5 on the table: names and length are kept, and with neither "gender" nor "sex" the table is unchanged; `GenderedSpec` states which column changes and what it becomes |
| Stages.GenderedSpec | cleaning.py:103-109 | when "gender" names a column, exactly that column becomes `GenderColumn` of itself; otherwise, when "sex" does, exactly that one; with neither the table is unchanged |
| Stages.Aged | cleaning.py:112-114 | names are kept and afterwards every age is in [0, 120] |
| Stages.DatesParsed | cleaning.py:117-119 | every column is parsed as `DateColumn` says; names are kept |
| Stages.StaysChecked | cleaning.py:122-124 | names are kept, afterwards no stay ends before it starts, and plausible ages stay plausible |
| Stages.PhonesCleaned | cleaning.py:127-129 | every column is cleaned as `PhoneColumn` says; names are kept |
| Stages.Converted | cleaning.py:132-136 | every column is converted as `ConvertNumericColumn` says; names are kept |
| Stages.Capped | cleaning.py:139-142 | every column is capped as `CapColumn` says; names are kept |
| Stages.Imputed | cleaning.py:145-151 | every column is filled by `FillNumeric` then `FillText`; names are kept, and a well-formed table is left with no gap in a text column and each numeric column complete or entirely missing (date columns are not imputed) |
| Stages.Blanked | cleaning.py:87-92 | renaming then blanking keeps one column per raw column with its cleaned name |
| Stages.KeptRows | main.py:153-154 | the rows kept by deduplication plus `duplicated().sum()` make the raw row count |
| Stages.Prepared | cleaning.py:87-119 | steps 1 to 7 in order give a well-formed table of `KeptRows` rows with the cleaned names |
| Stages.Finished | cleaning.py:126-151 | steps 8 to 11 in order keep the names and leave a well-formed table with no gap in a text column and each numeric column complete or entirely missing (date columns are not imputed) |
| Stages.CleanedRecords | cleaning.py:82-156 | `clean_hospital_records` as the composition of its steps: its row count is `KeptRows` and the table is well-formed with the cleaned names |
| Stages.CleanedMain | main.py:134-268 | the cleaning core of `main()` as the composition of its steps, without the stay check |
| Frames.Frame.constructor | cleaning.py:82 | `df_raw.copy()`: the frame holds the raw table |
| Frames.Frame.CleanColumnNames | cleaning.py:88 | every column is renamed to its cleaned name; nothing else changes; the new columns are exactly `Stages.Renamed` of the old ones |
| Frames.Frame.ReplaceEmptyLike | cleaning.py:91-92 | every column has its empty-like cells replaced; names are kept; the new columns are exactly `Stages.Replaced` of the old ones |
| Frames.Frame.DropDuplicates | main.py:153-154 | the new rows are the deduplicated old rows; names and kinds are kept; the returned count is `duplicated().sum()` and adds up with the new row count to the old one; the new columns are exactly `Stages.Deduplicated` of the old ones |
| Frames.Frame.TrimText | cleaning.py:98-100 | the loop leaves each text column trimmed and every other column unchanged; the new columns are exactly `Stages.Trimmed` of the old ones |
| Frames.Frame.CleanGender | cleaning.py:103-109 | only the first of "gender"/"sex" present is rewritten to male/female/missing; with neither, nothing changes; the new columns are exactly `Stages.Gendered` of the old ones |
| Frames.Frame.CleanAge | cleaning.py:112-114 | when "age" exists, only it changes and afterwards it holds only ages in [0, 120]; the new columns are exactly `Stages.Aged` of the old ones |
| Frames.Frame.ParseDates | cleaning.py:117-119 | the loop parses exactly the date-like columns; plausible ages stay plausible; the new columns are exactly `Stages.DatesParsed` of the old ones |
| Frames.Frame.CheckAdmissionDischarge | cleaning.py:122-124 | when both stay columns exist, only their inconsistent rows are cleared; afterwards the stays are consistent; the new columns are exactly `Stages.StaysChecked` of the old ones |
| Frames.Frame.CleanPhones | cleaning.py:127-129 | the loop cleans exactly the phone-like columns; plausible ages and consistent stays are kept; the new columns are exactly `Stages.PhonesCleaned` of the old ones |
| Frames.Frame.ConvertNumericText | cleaning.py:132-136 | the loop converts exactly the mostly-numeric text columns; plausible ages and consistent stays are kept; the new columns are exactly `Stages.Converted` of the old ones |
| Frames.Frame.CapOutliers | cleaning.py:139-142 | the loop caps exactly the numeric columns without "id" in their name; plausible ages and consistent stays are kept; the new columns are exactly `Stages.Capped` of the old ones |
| Frames.Frame.Impute | cleaning.py:146-151 | the two loops fill numeric gaps with the median and text gaps with "unknown", leaving no gap in a text column and each numeric column complete or entirely missing (date columns are not imputed); plausible ages and consistent stays are kept; the new columns are exactly `Stages.Imputed` of the old ones |
| Pipelines.CleanHospitalRecords | cleaning.py:82-156 | the cleaned table and its row count are exactly `CleanedRecords`, the composition of the eleven steps and the stay check; the row count is the deduplicated row count; the table keeps every column under its cleaned name, has no gaps left by imputation (text columns complete, numeric columns complete or entirely missing; date columns keep their missing timestamps), plausible ages and consistent stays; the reports describe the raw and the cleaned table |
| Pipelines.CleanMain | main.py:134-268 | the cleaned table and its row count are exactly `CleanedMain`; the dropped-duplicate count is `duplicated().sum()` of the blanked raw rows and adds up with the cleaned row count to the raw row count; the reports are count-ordered |

## Left out

- Drive mounting, directory checks and globbing, `os.chdir`, and every `print`: these are environment glue with no bearing on the table (main.py:25-32, 86-112, 123-128).
- The `find_cols` calls in `main()` only feed `print`. The function is modelled; the calls are not.
- CSV loading with the latin1 fallback, and the CSV writes, are file I/O. config.py holds only path constants and `mkdir` calls and is not part of this model.
- Number and date parsing, and the text form of numbers and timestamps, are library internals. They are the `Lib` parameter, and every property holds for any choice of it.
- Floating point: quantiles, medians, percentages and rounding use exact reals. NaN is `Missing`, and a 0/0 percentage is `None`, which sorts last.
- pandas dtype inference is replaced by the kind tag. Four behaviours are not captured: object columns that mix strings with numbers, boolean columns, and pandas re-inferring a column that ends up entirely NaN as float64, and the difference between int64 and float64. The gender and phone results therefore stay text columns.
- The kind tag merges int64 and float64 into one numeric kind, so the text form of a number (`Lib.numStr`) cannot depend on the column's dtype. In the source, `str(x)` in `clean_phone` (cleaning.py:31, main.py:59) gives "5551234567" for an int64 phone column but "5551234567.0" for a float64 one, and any missing cell makes the column float64; `clean_phone` then keeps the 11 digits "55512345670". `astype("string")` in the gender step (cleaning.py:109) depends on the dtype in the same way. The model covers both dtypes only through the choice of `Lib.numStr`, one choice for every column.
- Unicode: `lower`, `strip`, `\s` and `\d` are modelled on ASCII only.
- Duplicate column names after normalisation: a named lookup takes the first column with that name, while pandas would return all of them.
- The order of ties in `sort_values`: the model sorts stably, whereas pandas' default quicksort gives no tie order.
- An all-missing numeric column stays all-missing after imputation, as the code does (its median is NaN).
- Date columns are never imputed, as in the code: both fill loops select only numeric and text columns, so an unparsable date and a stay cleared by the admission/discharge check stay missing in the cleaned table.
- Samples.CleanTwoWordHeader: states the " Patient ID " example for every padded two-word header rather than for that literal.
- Samples.CleanPhoneWithExtension: states the "(555) 123-4567 ext 2" example for every number of that shape rather than for that literal.

=== FILE: frames.dfy ===
/**
 * The DataFrame the pipeline rewrites step by step: a table of columns that each cleaning step
 * replaces in place, column by column where the source loops over a list of columns.
 */
module Frames {
  import opened Wrappers
  import opened Strings
  import opened Tables
  import opened Helpers
  import opened Steps
  import opened Stages

  class Frame {
    var columns: seq<Column>
    var rows: nat

    ghost predicate Valid()
      reads this
    {
      TableValid(columns, rows)
    }

    constructor (cols: seq<Column>, n: nat)
      requires TableValid(cols, n)
      ensures Valid() && columns == cols && rows == n
    {
      columns := cols;
      rows := n;
    }

    /** Step 1: `df.columns = [clean_column_name(c) for c in df.columns]`. */
    method CleanColumnNames()
      requires Valid()
      modifies this
      ensures Valid() && rows == old(rows) && |columns| == |old(columns)|
      ensures forall j :: 0 <= j < |columns| ==>
                columns[j] == old(columns)[j].(name := CleanColumnName(old(columns)[j].name))
      ensures Names(columns) == CleanNames(Names(old(columns)))
      ensures columns == Renamed(old(columns))
    {
      var cols := columns;
      columns := seq(|cols|, j requires 0 <= j < |cols| => cols[j].(name := CleanColumnName(cols[j].name)));
      assert Names(columns) == CleanNames(Names(cols));
    }

    /** Step 2: `df.replace(EMPTY_LIKE, np.nan)` over the whole table. */
    method ReplaceEmptyLike()
      requires Valid()
      modifies this
      ensures Valid() && rows == old(rows) && |columns| == |old(columns)|
      ensures forall j :: 0 <= j < |columns| ==> columns[j] == ReplaceEmptyColumn(old(columns)[j])
      ensures columns == Replaced(old(columns))
      ensures Names(columns) == Names(old(columns))
    {
      var cols := columns;
      columns := seq(|cols|, j requires 0 <= j < |cols| => ReplaceEmptyColumn(cols[j]));
    }

    /** Step 3: `dup_count = df.duplicated().sum()`, then `df.drop_duplicates().reset_index(drop=True)`:
        the new rows are the old ones with every repeat removed, and `dupCount` rows went. */
    method DropDuplicates() returns (dupCount: nat)
      requires Valid()
      modifies this
      ensures Valid() && |columns| == |old(columns)|
      ensures Names(columns) == Names(old(columns))
      ensures forall j :: 0 <= j < |columns| ==> columns[j].kind == old(columns)[j].kind
      ensures Rows(columns, rows) == Dedup(old(Rows(columns, rows)))
      ensures dupCount == DuplicatedCount(old(Rows(columns, rows)))
      ensures dupCount + rows == old(rows)
      ensures columns == Deduplicated(old(columns), old(rows))
      ensures rows == |Dedup(old(Rows(columns, rows)))|
    {
      var rs := Rows(columns, rows);
      var idx := KeptIndices(rs);
      RowsOfDedup(columns, rows);
      DuplicatedCountSpec(rs);
      columns := SelectRows(columns, rows, idx);
      rows := |idx|;
      dupCount := DuplicatedCount(rs);
    }

    /** Step 4: `for col in text_cols: df[col] = df[col].astype("string").str.strip()`. */
    method TrimText(lib: Lib)
      requires Valid()
      modifies this
      ensures Valid() && rows == old(rows) && |columns| == |old(columns)|
      ensures forall j :: 0 <= j < |columns| ==> columns[j] == TrimColumn(lib, old(columns)[j])
      ensures columns == Trimmed(lib, old(columns))
      ensures Names(columns) == Names(old(columns))
    {
      for j := 0 to |columns|
        invariant TableValid(columns, rows) && rows == old(rows) && |columns| == |old(columns)|
        invariant forall k :: 0 <= k < j ==> columns[k] == TrimColumn(lib, old(columns)[k])
        invariant forall k :: j <= k < |columns| ==> columns[k] == old(columns)[k]
      {
        if columns[j].kind == TextKind {
          columns := columns[j := TrimColumn(lib, columns[j])];
        }
      }
    }

    /** Step 5: the first of "gender" and "sex" that names a column is mapped to male/female. */
    method CleanGender(lib: Lib)
      requires Valid()
      modifies this
      ensures Valid() && rows == old(rows)
      ensures var names := Names(old(columns));
              if "gender" in names then
                var j := IndexOf(names, "gender");
                columns == old(columns)[j := GenderColumn(lib, old(columns)[j])]
              else if "sex" in names then
                var j := IndexOf(names, "sex");
                columns == old(columns)[j := GenderColumn(lib, old(columns)[j])]
              else columns == old(columns)
      ensures Names(columns) == Names(old(columns))
      ensures columns == Gendered(lib, old(columns))
    {
      var names := Names(columns);
      var candidates := ["gender", "sex"];
      var g := FindFirstExisting(names, candidates);
      if g.Some? {
        var i :| 0 <= i < |candidates| && candidates[i] == g.value &&
                 forall k :: 0 <= k < i ==> candidates[k] !in names;
        assert g.value == if "gender" in names then "gender" else "sex" by {
          if i == 1 {
            assert candidates[0] !in names;
          }
        }
        var j := IndexOf(names, g.value);
        columns := columns[j := GenderColumn(lib, columns[j])];
      } else {
        assert candidates[0] !in names && candidates[1] !in names;
      }
    }

    /** Step 6: when an "age" column exists it is made numeric and ages outside [0, 120] dropped. */
    method CleanAge(lib: Lib)
      requires Valid()
      modifies this
      ensures Valid() && rows == old(rows)
      ensures var names := Names(old(columns));
              if "age" in names then
                var j := IndexOf(names, "age");
                columns == old(columns)[j := AgeColumn(lib, old(columns)[j])]
              else columns == old(columns)
      ensures Names(columns) == Names(old(columns))
      ensures AgesPlausible(columns)
      ensures columns == Aged(lib, old(columns))
    {
      if "age" in Names(columns) {
        var j := IndexOf(Names(columns), "age");
        columns := columns[j := AgeColumn(lib, columns[j])];
        assert Names(columns) == Names(old(columns));
      }
    }

    /** Step 7: `for col in date_cols: df[col] = pd.to_datetime(df[col], errors="coerce")`. */
    method ParseDates(lib: Lib)
      requires Valid()
      modifies this
      ensures Valid() && rows == old(rows) && |columns| == |old(columns)|
      ensures forall j :: 0 <= j < |columns| ==> columns[j] == DateColumn(lib, old(columns)[j])
      ensures columns == DatesParsed(lib, old(columns))
      ensures Names(columns) == Names(old(columns))
      ensures AgesPlausible(old(columns)) ==> AgesPlausible(columns)
    {
      for j := 0 to |columns|
        invariant TableValid(columns, rows) && rows == old(rows) && |columns| == |old(columns)|
        invariant forall k :: 0 <= k < j ==> columns[k] == DateColumn(lib, old(columns)[k])
        invariant forall k :: j <= k < |columns| ==> columns[k] == old(columns)[k]
      {
        if ContainsAny(columns[j].name, DateKeywords) {
          columns := columns[j := DateColumn(lib, columns[j])];
        }
      }
      assert Names(columns) == Names(old(columns));
      AgeNameFacts();
    }

    /** The admission/discharge check of cleaning.py: when both columns exist, rows whose discharge
        precedes admission lose both dates. */
    method CheckAdmissionDischarge()
      requires Valid()
      modifies this
      ensures Valid() && rows == old(rows)
      ensures var names := Names(old(columns));
              if "admission_date" in names && "discharge_date" in names then
                var a := IndexOf(names, "admission_date");
                var d := IndexOf(names, "discharge_date");
                var cleared := ClearInconsistentDates(old(columns)[a].cells, old(columns)[d].cells);
                columns == old(columns)[a := old(columns)[a].(cells := cleared.0)]
                                       [d := old(columns)[d].(cells := cleared.1)]
              else columns == old(columns)
      ensures Names(columns) == Names(old(columns))
      ensures StaysConsistent(columns, rows)
      ensures AgesPlausible(old(columns)) ==> AgesPlausible(columns)
      ensures columns == StaysChecked(old(columns), rows)
    {
      var names := Names(columns);
      if "admission_date" in names && "discharge_date" in names {
        var a := IndexOf(names, "admission_date");
        var d := IndexOf(names, "discharge_date");
        var cleared := ClearInconsistentDates(columns[a].cells, columns[d].cells);
        columns := columns[a := columns[a].(cells := cleared.0)][d := columns[d].(cells := cleared.1)];
        ClearStaysTable(old(columns), columns, rows);
      }
    }

    /** Step 8: `for c in phone_cols: df[c] = df[c].apply(clean_phone)`. */
    method CleanPhones(lib: Lib)
      requires Valid()
      modifies this
      ensures Valid() && rows == old(rows) && |columns| == |old(columns)|
      ensures forall j :: 0 <= j < |columns| ==> columns[j] == PhoneColumn(lib, old(columns)[j])
      ensures columns == PhonesCleaned(lib, old(columns))
      ensures Names(columns) == Names(old(columns))
      ensures AgesPlausible(old(columns)) ==> AgesPlausible(columns)
      ensures StaysConsistent(old(columns), rows) ==> StaysConsistent(columns, rows)
    {
      for j := 0 to |columns|
        invariant TableValid(columns, rows) && rows == old(rows) && |columns| == |old(columns)|
        invariant forall k :: 0 <= k < j ==> columns[k] == PhoneColumn(lib, old(columns)[k])
        invariant forall k :: j <= k < |columns| ==> columns[k] == old(columns)[k]
      {
        if ContainsAny(columns[j].name, PhoneKeywords) {
          columns := columns[j := PhoneColumn(lib, columns[j])];
        }
      }
      assert Names(columns) == Names(old(columns));
      AgeNameFacts();
      forall j | 0 <= j < |columns| ensures DatesKept(old(columns)[j], columns[j]) {
        PhoneKeepsDates(lib, old(columns)[j]);
      }
      if StaysConsistent(old(columns), rows) {
        StaysConsistentKept(old(columns), columns, rows);
      }
    }

    /** Step 9: every text column more than 70% of whose cells coerce is replaced by its numbers. */
    method ConvertNumericText(lib: Lib)
      requires Valid()
      modifies this
      ensures Valid() && rows == old(rows) && |columns| == |old(columns)|
      ensures forall j :: 0 <= j < |columns| ==> columns[j] == ConvertNumericColumn(lib, old(columns)[j])
      ensures columns == Converted(lib, old(columns))
      ensures Names(columns) == Names(old(columns))
      ensures AgesPlausible(old(columns)) ==> AgesPlausible(columns)
      ensures StaysConsistent(old(columns), rows) ==> StaysConsistent(columns, rows)
    {
      for j := 0 to |columns|
        invariant TableValid(columns, rows) && rows == old(rows) && |columns| == |old(columns)|
        invariant forall k :: 0 <= k < j ==> columns[k] == ConvertNumericColumn(lib, old(columns)[k])
        invariant forall k :: j <= k < |columns| ==> columns[k] == old(columns)[k]
      {
        if columns[j].kind == TextKind {
          var converted := Coerced(lib, columns[j].cells);
          if MostlyNumeric(lib, columns[j].cells) {
            columns := columns[j := Column(columns[j].name, NumKind, converted)];
          }
        }
      }
      ConvertTable(lib, old(columns), columns, rows);
    }

    /** Step 10: `for col in num_cols: if "id" not in col: df[col] = cap_outliers_iqr(df[col])`. */
    method CapOutliers()
      requires Valid()
      modifies this
      ensures Valid() && rows == old(rows) && |columns| == |old(columns)|
      ensures forall j :: 0 <= j < |columns| ==> columns[j] == CapColumn(old(columns)[j])
      ensures columns == Capped(old(columns))
      ensures Names(columns) == Names(old(columns))
      ensures AgesPlausible(old(columns)) ==> AgesPlausible(columns)
      ensures StaysConsistent(old(columns), rows) ==> StaysConsistent(columns, rows)
    {
      for j := 0 to |columns|
        invariant TableValid(columns, rows) && rows == old(rows) && |columns| == |old(columns)|
        invariant forall k :: 0 <= k < j ==> columns[k] == CapColumn(old(columns)[k])
        invariant forall k :: j <= k < |columns| ==> columns[k] == old(columns)[k]
      {
        if IsCapped(columns[j]) {
          columns := columns[j := CapColumn(columns[j])];
        }
      }
      assert Names(columns) == Names(old(columns));
      if "age" in Names(columns) {
        var a := IndexOf(Names(columns), "age");
        if AgesPlausible(old(columns)) {
          CapKeepsRange(old(columns)[a].cells, 0.0, 120.0);
        }
      }
      forall j | 0 <= j < |columns| ensures DatesKept(old(columns)[j], columns[j]) {
        CapKeepsDates(old(columns)[j]);
      }
      if StaysConsistent(old(columns), rows) {
        StaysConsistentKept(old(columns), columns, rows);
      }
    }

    /** Step 11: numeric columns take their median, then text columns take "unknown". */
    method Impute()
      requires Valid()
      modifies this
      ensures Valid() && rows == old(rows) && |columns| == |old(columns)|
      ensures forall j :: 0 <= j < |columns| ==> columns[j] == FillText(FillNumeric(old(columns)[j]))
      ensures columns == Imputed(old(columns))
      ensures Names(columns) == Names(old(columns))
      ensures NoGaps(columns, rows)
      ensures AgesPlausible(old(columns)) ==> AgesPlausible(columns)
      ensures StaysConsistent(old(columns), rows) ==> StaysConsistent(columns, rows)
    {
      for j := 0 to |columns|
        invariant TableValid(columns, rows) && rows == old(rows) && |columns| == |old(columns)|
        invariant forall k :: 0 <= k < j ==> columns[k] == FillNumeric(old(columns)[k])
        invariant forall k :: j <= k < |columns| ==> columns[k] == old(columns)[k]
      {
        if columns[j].kind == NumKind {
          columns := columns[j := FillNumeric(columns[j])];
        }
      }
      ghost var filled := columns;
      for j := 0 to |columns|
        invariant TableValid(columns, rows) && rows == old(rows) && |columns| == |filled|
        invariant forall k :: 0 <= k < j ==> columns[k] == FillText(filled[k])
        invariant forall k :: j <= k < |columns| ==> columns[k] == filled[k]
      {
        if columns[j].kind == TextKind {
          columns := columns[j := FillText(columns[j])];
        }
      }
      ImputeTable(old(columns), columns, rows);
    }
  }
}

=== FILE: helpers.dfy ===
/**
 * The helper functions shared by the two entry points (`cleaning.py` and `main.py` define
 * the same `clean_column_name`, `clean_phone` and `cap_outliers_iqr`), plus the column
 * searches `find_first_existing` and `find_cols`.
 */
module Helpers {
  import opened Wrappers
  import opened Strings
  import opened Tables
  import opened Quantiles

  // ---------------------------------------------------------------------------
  // Column names
  // ---------------------------------------------------------------------------

  /** `clean_column_name`: strip, lower-case, whitespace runs to "_", drop everything outside [a-z0-9_]. */
  function CleanColumnName(col: string): (r: string)
    ensures AllNameChars(r)
    ensures NoSpace(r)
  {
    KeepNameChars(CollapseSpaces(Lower(Strip(col))))
  }

  /** `df.columns = [clean_column_name(c) for c in df.columns]`, on the list of names. */
  function CleanNames(names: seq<string>): (r: seq<string>)
    ensures |r| == |names|
    ensures forall j :: 0 <= j < |names| ==> r[j] == CleanColumnName(names[j])
  {
    seq(|names|, j requires 0 <= j < |names| => CleanColumnName(names[j]))
  }

  /** Cleaning a cleaned name changes nothing. */
  lemma CleanColumnNameIdempotent(col: string)
    ensures CleanColumnName(CleanColumnName(col)) == CleanColumnName(col)
  {
    var r := CleanColumnName(col);
    StripNoSpace(r);
    assert Lower(r) == r;
    CollapseSpacesAppend(r, []);
  }

  // ---------------------------------------------------------------------------
  // Phone numbers
  // ---------------------------------------------------------------------------

  /** `clean_phone`: the digits of the value, kept when there are 10 to 15 of them. */
  function CleanPhone(lib: Lib, c: Cell): (r: Cell)
    ensures r == Missing || (r.Text? && AllDigits(r.s) && 10 <= |r.s| <= 15)
    ensures c == Missing ==> r == Missing
    ensures c != Missing ==>
              var d := Digits(Str(lib, c));
              r == if 10 <= |d| <= 15 then Text(d) else Missing
  {
    if c == Missing then Missing
    else
      var digits := Digits(Str(lib, c));
      DigitsAreDigits(Str(lib, c));
      if |digits| < 10 || |digits| > 15 then Missing else Text(digits)
  }

  // ---------------------------------------------------------------------------
  // IQR capping
  // ---------------------------------------------------------------------------

  /** A column is capped only with at least 5 values and a non-zero IQR. */
  predicate HasSpread(v: seq<real>) {
    |v| >= 5 && Quantile(v, 0.25) != Quantile(v, 0.75)
  }

  /** The capping fences `(Q1 - 1.5 IQR, Q3 + 1.5 IQR)` of a column, or None when
      `cap_outliers_iqr` leaves the column alone: fewer than 5 values, or IQR = 0. */
  function Fences(cells: seq<Cell>): (f: Option<(real, real)>)
    ensures f.Some? ==> f.value.0 < f.value.1
    ensures f.Some? <==> HasSpread(NumValues(cells))
    ensures f.Some? ==>
              var v := NumValues(cells);
              var q1, q3 := Quantile(v, 0.25), Quantile(v, 0.75);
              q1 < q3 && f.value == (q1 - 1.5 * (q3 - q1), q3 + 1.5 * (q3 - q1))
  {
    var v := NumValues(cells);
    if !HasSpread(v) then None
    else
      var q1 := Quantile(v, 0.25);
      var q3 := Quantile(v, 0.75);
      QuantileMonotone(Sort(v), 0.25, 0.75);
      var iqr := q3 - q1;
      Some((q1 - 1.5 * iqr, q3 + 1.5 * iqr))
  }

  /** `Series.clip(lower, upper)` on one value. */
  function Clip(x: real, lower: real, upper: real): (r: real)
    ensures lower <= upper ==> lower <= r <= upper
    ensures lower <= x <= upper ==> r == x
  {
    if x < lower then lower else if x > upper then upper else x
  }

  /** `cap_outliers_iqr`: clip every value to the fences when there are any; missing cells stay missing. */
  function CapOutliersIqr(cells: seq<Cell>): (r: seq<Cell>)
    ensures |r| == |cells|
    ensures Fences(cells).None? ==> r == cells
    ensures forall i :: 0 <= i < |cells| && !cells[i].Num? ==> r[i] == cells[i]
    ensures Fences(cells).Some? ==>
              var (lower, upper) := Fences(cells).value;
              forall i :: 0 <= i < |cells| && cells[i].Num? ==>
                && r[i].Num?
                && lower <= r[i].x <= upper
                && (lower <= cells[i].x <= upper ==> r[i] == cells[i])
                && (cells[i].x < lower ==> r[i].x == lower)
                && (cells[i].x > upper ==> r[i].x == upper)
  {
    match Fences(cells)
    case None => cells
    case Some((lower, upper)) =>
      seq(|cells|, i requires 0 <= i < |cells| =>
        if cells[i].Num? then Num(Clip(cells[i].x, lower, upper)) else cells[i])
  }

  // ---------------------------------------------------------------------------
  // Column searches
  // ---------------------------------------------------------------------------

  /** `find_first_existing`: the first candidate that names a column, or None when none does. */
  method FindFirstExisting(columns: seq<string>, candidates: seq<string>) returns (r: Option<string>)
    ensures r.None? <==> forall i :: 0 <= i < |candidates| ==> candidates[i] !in columns
    ensures r.Some? ==>
              && r.value in columns
              && exists i :: 0 <= i < |candidates| && candidates[i] == r.value &&
                   forall k :: 0 <= k < i ==> candidates[k] !in columns
  {
    for i := 0 to |candidates|
      invariant forall k :: 0 <= k < i ==> candidates[k] !in columns
    {
      if candidates[i] in columns {
        return Some(candidates[i]);
      }
    }
    return None;
  }

  /** r is s with some elements deleted, the rest in their original order. */
  predicate Subsequence(r: seq<string>, s: seq<string>)
    decreases |s|
  {
    r == [] || (s != [] && ((r[0] == s[0] && Subsequence(r[1..], s[1..])) || Subsequence(r, s[1..])))
  }

  /** `find_cols`: the columns containing at least one keyword, in their original order. */
  function FindCols(cols: seq<string>, keywords: seq<string>): (r: seq<string>)
    ensures forall c :: c in r <==> c in cols && ContainsAny(c, keywords)
    ensures forall c :: multiset(r)[c] == if ContainsAny(c, keywords) then multiset(cols)[c] else 0
    ensures Subsequence(r, cols)
  {
    if cols == [] then []
    else
      assert cols == [cols[0]] + cols[1..];
      var rest := FindCols(cols[1..], keywords);
      if ContainsAny(cols[0], keywords) then [cols[0]] + rest else rest
  }
}

=== FILE: pipelines.dfy ===
/**
 * The two entry points: `clean_hospital_records` of cleaning.py and the cleaning core of `main()`
 * in main.py. Each copies the raw table into a Frame, runs the steps in the source's order and
 * reports missing values before and after.
 */
module Pipelines {
  import opened Helpers
  import opened Tables
  import opened Steps
  import opened Reports
  import opened Frames
  import opened Stages

  /** `clean_hospital_records`: the cleaned table keeps every column, under its normalised name,
      has no more rows than the raw one, has no gaps left by imputation, plausible ages and
      consistent stays; the reports describe the raw and the cleaned table. */
  method CleanHospitalRecords(raw: seq<Column>, rows: nat, lib: Lib)
    returns (clean: seq<Column>, cleanRows: nat, before: seq<ReportEntry>, after: seq<ReportEntry>)
    requires TableValid(raw, rows)
    ensures TableValid(clean, cleanRows) && |clean| == |raw| && cleanRows <= rows
    ensures Names(clean) == CleanNames(Names(raw))
    ensures NoGaps(clean, cleanRows)
    ensures AgesPlausible(clean)
    ensures StaysConsistent(clean, cleanRows)
    ensures before == MissingReport(raw, rows) && after == MissingReport(clean, cleanRows)
    ensures (clean, cleanRows) == CleanedRecords(raw, rows, lib)
    ensures cleanRows == |Dedup(Rows(Blanked(raw), rows))|
  {
    var df := new Frame(raw, rows);
    before := MissingReport(df.columns, df.rows);
    df.CleanColumnNames();
    ghost var named := df.columns;
    df.ReplaceEmptyLike();
    assert df.columns == Blanked(raw);
    var _ := df.DropDuplicates();
    df.TrimText(lib);
    df.CleanGender(lib);
    df.CleanAge(lib);
    df.ParseDates(lib);
    df.CheckAdmissionDischarge();
    df.CleanPhones(lib);
    df.ConvertNumericText(lib);
    df.CapOutliers();
    df.Impute();
    clean, cleanRows := df.columns, df.rows;
    assert Names(clean) == Names(named);
    after := MissingReport(clean, cleanRows);
  }

  /** The cleaning core of `main()`: as `CleanHospitalRecords` but without the admission/discharge
      check, with reports ordered by count, and with the number of duplicate rows dropped, which
      together with the cleaned row count makes up the raw row count. */
  method CleanMain(raw: seq<Column>, rows: nat, lib: Lib)
    returns (clean: seq<Column>, cleanRows: nat, dupCount: nat, before: seq<ReportEntry>, after: seq<ReportEntry>)
    requires TableValid(raw, rows)
    ensures TableValid(clean, cleanRows) && |clean| == |raw|
    ensures cleanRows + dupCount == rows
    ensures Names(clean) == CleanNames(Names(raw))
    ensures NoGaps(clean, cleanRows)
    ensures AgesPlausible(clean)
    ensures before == MissingReportByCount(raw, rows) && after == MissingReportByCount(clean, cleanRows)
    ensures (clean, cleanRows) == CleanedMain(raw, rows, lib)
    ensures cleanRows == |Dedup(Rows(Blanked(raw), rows))|
    ensures dupCount == DuplicatedCount(Rows(Blanked(raw), rows))
  {
    var df := new Frame(raw, rows);
    before := MissingReportByCount(df.columns, df.rows);
    df.CleanColumnNames();
    ghost var named := df.columns;
    df.ReplaceEmptyLike();
    assert df.columns == Blanked(raw);
    dupCount := df.DropDuplicates();
    df.TrimText(lib);
    df.CleanGender(lib);
    df.CleanAge(lib);
    df.ParseDates(lib);
    df.CleanPhones(lib);
    df.ConvertNumericText(lib);
    df.CapOutliers();
    df.Impute();
    clean, cleanRows := df.columns, df.rows;
    assert Names(clean) == Names(named);
    after := MissingReportByCount(clean, cleanRows);
  }
}

=== FILE: quantiles.dfy ===
/**
 * pandas' `Series.quantile(p)` with its default linear interpolation, and `Series.median()`,
 * over the non-missing values of a column, in exact real arithmetic.
 */
module Quantiles {

  predicate Sorted(s: seq<real>) {
    forall i, j :: 0 <= i <= j < |s| ==> s[i] <= s[j]
  }

  function Insert(x: real, s: seq<real>): (r: seq<real>)
    requires Sorted(s)
    ensures Sorted(r)
    ensures multiset(r) == multiset(s) + multiset{x}
  {
    if s == [] || x <= s[0] then [x] + s
    else
      assert s == [s[0]] + s[1..];
      var rest := Insert(x, s[1..]);
      AllAtLeast(s[0], rest, s[1..], x);
      SortedCons(s[0], rest);
      [s[0]] + rest
  }

  /** A bound below every element of s and below x is below every element of s with x added. */
  lemma AllAtLeast(b: real, r: seq<real>, s: seq<real>, x: real)
    requires multiset(r) == multiset(s) + multiset{x}
    requires b <= x && forall i :: 0 <= i < |s| ==> b <= s[i]
    ensures forall i :: 0 <= i < |r| ==> b <= r[i]
  {
    forall i | 0 <= i < |r| ensures b <= r[i] {
      assert r[i] in multiset(r);
      if r[i] != x {
        assert r[i] in multiset(s);
      }
    }
  }

  lemma SortedCons(a: real, r: seq<real>)
    requires Sorted(r) && forall i :: 0 <= i < |r| ==> a <= r[i]
    ensures Sorted([a] + r)
  {
  }

  /** The values in ascending order (the order numpy's quantile reads them in). */
  function Sort(s: seq<real>): (r: seq<real>)
    ensures Sorted(r)
    ensures multiset(r) == multiset(s)
    ensures |r| == |s|
  {
    if s == [] then []
    else
      assert s == [s[0]] + s[1..];
      Insert(s[0], Sort(s[1..]))
  }

  lemma MulNonNegative(a: real, b: real)
    requires 0.0 <= a && 0.0 <= b
    ensures 0.0 <= a * b
  {
  }

  /** a * d grows with a when d is not negative. */
  lemma MulLe(a: real, b: real, d: real)
    requires a <= b && 0.0 <= d
    ensures a * d <= b * d
  {
    MulNonNegative(b - a, d);
    assert (b - a) * d == b * d - a * d;
  }

  /** Scaling a non-negative m by weights in [0, 1] stays within [0, m] and keeps their order. */
  lemma ScaleMonotone(p: real, p': real, m: real)
    requires 0.0 <= p <= p' <= 1.0 && 0.0 <= m
    ensures 0.0 <= p * m <= p' * m <= m
  {
    MulNonNegative(p, m);
    MulLe(p, p', m);
    MulLe(p', 1.0, m);
  }

  /** Position `p * (n - 1)` of the p-quantile among n sorted values. */
  function Position(n: nat, p: real): (pos: real)
    requires n > 0 && 0.0 <= p <= 1.0
    ensures 0.0 <= pos <= (n - 1) as real
  {
    var m := (n - 1) as real;
    ScaleMonotone(p, 1.0, m);
    p * m
  }

  /** A larger p gives a later position. */
  lemma PositionMonotone(n: nat, p: real, p': real)
    requires n > 0 && 0.0 <= p <= p' <= 1.0
    ensures Position(n, p) <= Position(n, p')
  {
    var m := (n - 1) as real;
    ScaleMonotone(p, p', m);
    calc {
      Position(n, p);
      p * m;
    <=
      p' * m;
      Position(n, p');
    }
  }

  /** The point a fraction t of the way from a to b. */
  function Lerp(a: real, b: real, t: real): real {
    a + t * (b - a)
  }

  /** Between its ends for t in [0, 1], and growing with t. */
  lemma LerpMonotone(a: real, b: real, t: real, t': real)
    requires a <= b && 0.0 <= t <= t' <= 1.0
    ensures a <= Lerp(a, b, t) <= Lerp(a, b, t') <= b
  {
    ScaleMonotone(t, t', b - a);
  }

  /** Linear interpolation at a real position of a sorted sequence: between the values at
      floor(pos) and floor(pos) + 1. */
  function Interpolate(s: seq<real>, pos: real): (q: real)
    requires Sorted(s) && 0.0 <= pos <= (|s| - 1) as real
    ensures var lo := pos.Floor;
            && 0 <= lo < |s| && s[lo] <= q
            && (lo + 1 < |s| ==> q <= s[lo + 1])
            && (pos == lo as real ==> q == s[lo])
  {
    var lo := pos.Floor;
    if lo + 1 < |s| then
      LerpMonotone(s[lo], s[lo + 1], pos - lo as real, pos - lo as real);
      Lerp(s[lo], s[lo + 1], pos - lo as real)
    else s[lo]
  }

  lemma {:induction false} InterpolateMonotone(s: seq<real>, pos: real, pos': real)
    requires Sorted(s) && 0.0 <= pos <= pos' <= (|s| - 1) as real
    ensures Interpolate(s, pos) <= Interpolate(s, pos')
  {
    var lo, lo' := pos.Floor, pos'.Floor;
    if lo < lo' {
      assert Interpolate(s, pos) <= s[lo + 1] <= s[lo'] <= Interpolate(s, pos');
    } else if lo + 1 < |s| {
      assert lo == lo';
      LerpMonotone(s[lo], s[lo + 1], pos - lo as real, pos' - lo as real);
    }
  }

  /**
   * numpy's "linear" quantile of a sorted, non-empty sequence: the interpolated value at
   * position p * (n - 1).
   */
  function QuantileSorted(s: seq<real>, p: real): (q: real)
    requires Sorted(s) && |s| > 0 && 0.0 <= p <= 1.0
    ensures s[0] <= q <= s[|s| - 1]
    ensures var pos := Position(|s|, p);
            var lo := pos.Floor;
            && 0 <= lo < |s| && s[lo] <= q
            && (lo + 1 < |s| ==> q <= s[lo + 1])
            && (pos == lo as real ==> q == s[lo])
  {
    Interpolate(s, Position(|s|, p))
  }

  /** The quantile grows with p; in particular Q1 <= median <= Q3. */
  lemma QuantileMonotone(s: seq<real>, p: real, p': real)
    requires Sorted(s) && |s| > 0 && 0.0 <= p <= p' <= 1.0
    ensures QuantileSorted(s, p) <= QuantileSorted(s, p')
  {
    PositionMonotone(|s|, p, p');
    InterpolateMonotone(s, Position(|s|, p), Position(|s|, p'));
  }

  /** `Series.quantile(p)` over a column's non-missing values: lies between the smallest and the
      largest of them. */
  function Quantile(vals: seq<real>, p: real): (q: real)
    requires |vals| > 0 && 0.0 <= p <= 1.0
    ensures exists i :: 0 <= i < |vals| && vals[i] <= q
    ensures exists j :: 0 <= j < |vals| && q <= vals[j]
  {
    var s := Sort(vals);
    assert s[0] in multiset(vals) && s[|s| - 1] in multiset(vals);
    QuantileSorted(s, p)
  }

  /** `Series.median()`: the 0.5-quantile (the middle value, or the mean of the two middle values). */
  function Median(vals: seq<real>): real
    requires |vals| > 0
  {
    Quantile(vals, 0.5)
  }

  /** For an odd number of values the median is one of them; in every case it lies between the
      smallest and the largest. */
  lemma MedianOfValues(vals: seq<real>)
    requires |vals| > 0
    ensures (exists i :: 0 <= i < |vals| && vals[i] <= Median(vals))
         && (exists j :: 0 <= j < |vals| && Median(vals) <= vals[j])
    ensures |vals| % 2 == 1 ==> Median(vals) in vals
    ensures |vals| % 2 == 0 ==>
              Median(vals) == (Sort(vals)[|vals| / 2 - 1] + Sort(vals)[|vals| / 2]) / 2.0
  {
    if |vals| % 2 == 1 {
      MedianOdd(vals);
    } else {
      MedianEven(Sort(vals));
    }
  }

  /** For an odd count the 0.5 position is the middle index, so the median is a value. */
  lemma MedianOdd(vals: seq<real>)
    requires |vals| % 2 == 1
    ensures Median(vals) in vals
  {
    var s := Sort(vals);
    var k := (|vals| - 1) / 2;
    assert Position(|s|, 0.5) == k as real;
    assert s[k] in multiset(vals);
  }

  /** For an even count the 0.5 position falls halfway between the two middle values. */
  lemma PositionHalfEven(n: nat)
    requires n > 0 && n % 2 == 0
    ensures Position(n, 0.5) == (n / 2 - 1) as real + 0.5
    ensures Position(n, 0.5).Floor == n / 2 - 1
  {
    var k := n / 2;
    assert n == 2 * k;
    assert (n - 1) as real == 2.0 * (k - 1) as real + 1.0;
  }

  /** Halfway between two values is their mean. */
  lemma LerpHalf(a: real, b: real)
    ensures Lerp(a, b, 0.5) == (a + b) / 2.0
  {
  }

  /** The sorted median of an even number of values is the mean of the two middle ones. */
  lemma MedianEven(s: seq<real>)
    requires Sorted(s) && |s| > 0 && |s| % 2 == 0
    ensures QuantileSorted(s, 0.5) == (s[|s| / 2 - 1] + s[|s| / 2]) / 2.0
  {
    var k := |s| / 2;
    PositionHalfEven(|s|);
    var pos := Position(|s|, 0.5);
    assert pos - (k - 1) as real == 0.5;
    LerpHalf(s[k - 1], s[k]);
  }
}

=== FILE: reports.dfy ===
/**
 * The missing-value reports: one entry per column with its missing-cell count and percentage,
 * ordered by percentage (`missing_report` in cleaning.py, which also rounds the percentage to
 * two decimals) or by count (`missing_report` in main.py).
 */
module Reports {
  import opened Wrappers
  import opened Tables

  /** One row of the report; `pct` is None where pandas computes 0/0 = NaN (a table with no rows). */
  datatype ReportEntry = ReportEntry(column: string, missing: nat, pct: Option<real>)

  /** The column a report is sorted on. */
  datatype OrderBy = ByCount | ByPercent

  /** numpy's `round(x, 2)`: the nearest multiple of 1/100, ties to the even multiple. */
  function Round2(x: real): (r: real)
    ensures (r * 100.0).Floor as real == r * 100.0
    ensures -0.005 <= r - x <= 0.005
    ensures 0.0 <= x <= 100.0 ==> 0.0 <= r <= 100.0
  {
    var y := x * 100.0;
    var f := y.Floor;
    var frac := y - f as real;
    var n := if frac > 0.5 then f + 1
             else if frac < 0.5 then f
             else if f % 2 == 0 then f else f + 1;
    n as real / 100.0
  }

  /** `(miss / len(df)) * 100` for one column. */
  function Percent(missing: nat, rows: nat): (r: Option<real>)
    ensures r.None? <==> rows == 0
    ensures r.Some? ==> r.value * rows as real == missing as real * 100.0
    ensures r.Some? && missing <= rows ==> 0.0 <= r.value <= 100.0
  {
    if rows == 0 then None else Some(missing as real / rows as real * 100.0)
  }

  /** The unsorted report: one entry per column, in column order. */
  function PerColumn(cols: seq<Column>, rows: nat, rounded: bool): (r: seq<ReportEntry>)
    ensures |r| == |cols|
    ensures forall j :: 0 <= j < |cols| ==>
              var n := MissingCount(cols[j].cells);
              var p := Percent(n, rows);
              r[j] == ReportEntry(cols[j].name, n,
                                  if rounded && p.Some? then Some(Round2(p.value)) else p)
  {
    seq(|cols|, j requires 0 <= j < |cols| =>
      var n := MissingCount(cols[j].cells);
      var p := Percent(n, rows);
      ReportEntry(cols[j].name, n, if rounded && p.Some? then Some(Round2(p.value)) else p))
  }

  /** The sort key; NaN percentages sort last, as pandas places them. */
  function Key(order: OrderBy, e: ReportEntry): real {
    match order
    case ByCount => e.missing as real
    case ByPercent => if e.pct.Some? then e.pct.value else -1.0
  }

  predicate SortedDesc(es: seq<ReportEntry>, order: OrderBy) {
    forall i, j :: 0 <= i < j < |es| ==> Key(order, es[i]) >= Key(order, es[j])
  }

  function InsertDesc(e: ReportEntry, es: seq<ReportEntry>, order: OrderBy): (r: seq<ReportEntry>)
    requires SortedDesc(es, order)
    ensures SortedDesc(r, order)
    ensures multiset(r) == multiset(es) + multiset{e}
  {
    if es == [] then [e]
    else if Key(order, e) >= Key(order, es[0]) then
      HeadIsMax(es, order);
      SortedDescCons(e, es, order);
      [e] + es
    else
      assert es == [es[0]] + es[1..];
      TailSorted(es, order);
      var rest := InsertDesc(e, es[1..], order);
      KeysAtMost(Key(order, es[0]), rest, es[1..], e, order);
      SortedDescCons(es[0], rest, order);
      assert multiset([es[0]] + rest) == multiset{es[0]} + multiset(rest);
      [es[0]] + rest
  }

  /** The first entry of a sorted report has the largest key. */
  lemma HeadIsMax(es: seq<ReportEntry>, order: OrderBy)
    requires es != [] && SortedDesc(es, order)
    ensures forall i :: 0 <= i < |es| ==> Key(order, es[i]) <= Key(order, es[0])
  {
    forall i | 0 < i < |es| ensures Key(order, es[i]) <= Key(order, es[0]) {
      assert Key(order, es[0]) >= Key(order, es[i]);
    }
  }

  /** Without its first entry a sorted report stays sorted, below that entry's key. */
  lemma TailSorted(es: seq<ReportEntry>, order: OrderBy)
    requires es != [] && SortedDesc(es, order)
    ensures SortedDesc(es[1..], order)
    ensures forall i :: 0 <= i < |es[1..]| ==> Key(order, es[1..][i]) <= Key(order, es[0])
  {
    HeadIsMax(es, order);
    forall i, j | 0 <= i < j < |es[1..]| ensures Key(order, es[1..][i]) >= Key(order, es[1..][j]) {
      assert es[1..][i] == es[i + 1] && es[1..][j] == es[j + 1];
    }
  }

  /** A key bound above every entry of es and above e is above every entry of es with e added. */
  lemma KeysAtMost(b: real, r: seq<ReportEntry>, es: seq<ReportEntry>, e: ReportEntry, order: OrderBy)
    requires multiset(r) == multiset(es) + multiset{e}
    requires Key(order, e) <= b && forall i :: 0 <= i < |es| ==> Key(order, es[i]) <= b
    ensures forall i :: 0 <= i < |r| ==> Key(order, r[i]) <= b
  {
    forall i | 0 <= i < |r| ensures Key(order, r[i]) <= b {
      assert r[i] in multiset(r);
      if r[i] != e {
        assert r[i] in multiset(es);
      }
    }
  }

  lemma SortedDescCons(e: ReportEntry, r: seq<ReportEntry>, order: OrderBy)
    requires SortedDesc(r, order) && forall i :: 0 <= i < |r| ==> Key(order, r[i]) <= Key(order, e)
    ensures SortedDesc([e] + r, order)
  {
  }

  /** `sort_values(..., ascending=False)`: the same entries, in non-increasing key order. */
  function SortDesc(es: seq<ReportEntry>, order: OrderBy): (r: seq<ReportEntry>)
    ensures SortedDesc(r, order)
    ensures multiset(r) == multiset(es)
    ensures |r| == |es|
  {
    if es == [] then []
    else
      assert es == [es[0]] + es[1..];
      InsertDesc(es[0], SortDesc(es[1..], order), order)
  }

  /** `missing_report` of cleaning.py: percentages rounded to two decimals, sorted by percentage. */
  function MissingReport(cols: seq<Column>, rows: nat): seq<ReportEntry> {
    SortDesc(PerColumn(cols, rows, true), ByPercent)
  }

  /** `missing_report` of main.py: unrounded percentages, sorted by count. */
  function MissingReportByCount(cols: seq<Column>, rows: nat): seq<ReportEntry> {
    SortDesc(PerColumn(cols, rows, false), ByCount)
  }

  /** Facts every entry of a report on a well-formed table satisfies. */
  predicate EntryBounded(e: ReportEntry, rows: nat) {
    && e.missing <= rows
    && (rows == 0 <==> e.pct.None?)
    && (e.pct.Some? ==> 0.0 <= e.pct.value <= 100.0)
  }

  /** The cleaning.py report holds exactly one entry per column (count and rounded percentage of
      its missing cells), ordered by non-increasing percentage, each count at most the row count. */
  lemma MissingReportSpec(cols: seq<Column>, rows: nat)
    requires TableValid(cols, rows)
    ensures var r := MissingReport(cols, rows);
            && multiset(r) == multiset(PerColumn(cols, rows, true))
            && SortedDesc(r, ByPercent)
            && forall i :: 0 <= i < |r| ==> EntryBounded(r[i], rows)
  {
    var per := PerColumn(cols, rows, true);
    var r := MissingReport(cols, rows);
    forall j | 0 <= j < |per| ensures EntryBounded(per[j], rows) {
      assert per[j].missing <= rows;
    }
    forall i | 0 <= i < |r| ensures EntryBounded(r[i], rows) {
      assert r[i] in multiset(per);
    }
  }

  /** The main.py report holds exactly one entry per column, ordered by non-increasing count. */
  lemma MissingReportByCountSpec(cols: seq<Column>, rows: nat)
    requires TableValid(cols, rows)
    ensures var r := MissingReportByCount(cols, rows);
            && multiset(r) == multiset(PerColumn(cols, rows, false))
            && SortedDesc(r, ByCount)
            && forall i :: 0 <= i < |r| ==> EntryBounded(r[i], rows)
  {
    var per := PerColumn(cols, rows, false);
    var r := MissingReportByCount(cols, rows);
    forall j | 0 <= j < |per| ensures EntryBounded(per[j], rows) {
      assert per[j].missing <= rows;
    }
    forall i | 0 <= i < |r| ensures EntryBounded(r[i], rows) {
      assert r[i] in multiset(per);
    }
  }
}

=== FILE: samples.dfy ===
/**
 * Worked examples of the cleaning steps, stated as lemmas about the model.
 */
module Samples {
  import opened Strings
  import opened Tables
  import opened Helpers
  import opened Steps

  /** An ASCII letter or digit. */
  predicate IsAlnum(c: char) {
    'a' <= c <= 'z' || 'A' <= c <= 'Z' || IsDigit(c)
  }

  predicate IsWord(w: string) {
    w != [] && forall k :: 0 <= k < |w| ==> IsAlnum(w[k])
  }

  /** A padded two-word header such as " Patient ID " becomes "patient_id": the padding goes,
      the words are lower-cased and the blank between them becomes an underscore. */
  lemma CleanTwoWordHeader(first: string, second: string)
    requires IsWord(first) && IsWord(second)
    ensures CleanColumnName(" " + first + " " + second + " ") == Lower(first) + "_" + Lower(second)
  {
    var inner := first + " " + second;
    var header := " " + first + " " + second + " ";
    assert header == " " + inner + " ";
    assert inner[0] == first[0] && inner[|inner| - 1] == second[|second| - 1];
    StripPadding(inner);
    var a, b := Lower(first), Lower(second);
    LowerJoin(first, second);
    LowerWord(first);
    LowerWord(second);
    CollapseOneSpace(a, b);
    var joined := a + "_" + b;
    NameCharsJoin(a, b);
    assert KeepNameChars(joined) == joined;
    calc {
      CleanColumnName(header);
      KeepNameChars(CollapseSpaces(Lower(Strip(header))));
      KeepNameChars(CollapseSpaces(Lower(inner)));
      KeepNameChars(CollapseSpaces(a + " " + b));
      joined;
    }
  }

  lemma LowerWord(w: string)
    requires IsWord(w)
    ensures AllNameChars(Lower(w)) && NoSpace(Lower(w))
  {
  }

  lemma NameCharsJoin(a: string, b: string)
    requires AllNameChars(a) && AllNameChars(b)
    ensures AllNameChars(a + "_" + b)
  {
    var j := a + "_" + b;
    forall k | 0 <= k < |j| ensures IsNameChar(j[k]) {
      if k < |a| {
        assert j[k] == a[k];
      } else if k > |a| {
        assert j[k] == b[k - |a| - 1];
      }
    }
  }

  lemma StripPadding(inner: string)
    requires inner != [] && !IsSpace(inner[0]) && !IsSpace(inner[|inner| - 1])
    ensures Strip(" " + inner + " ") == inner
  {
    var t := inner + " ";
    assert (" " + inner + " ")[1..] == t;
    assert t[0] == inner[0];
    assert TrimStart(t) == t;
    assert t[..|inner|] == inner;
    assert TrimEnd(inner) == inner;
  }

  lemma LowerJoin(a: string, b: string)
    ensures Lower(a + " " + b) == Lower(a) + " " + Lower(b)
  {
    var l, r := Lower(a + " " + b), Lower(a) + " " + Lower(b);
    assert |l| == |r|;
    forall k | 0 <= k < |l| ensures l[k] == r[k] {
      if k < |a| {
        assert (a + " " + b)[k] == a[k];
      } else if k > |a| {
        assert (a + " " + b)[k] == b[k - |a| - 1];
      }
    }
  }

  /** A phone number written "(AAA) BBB-CCCC ext E" keeps its digits AAABBBCCCCE, e.g.
      "(555) 123-4567 ext 2" becomes "55512345672". */
  lemma CleanPhoneWithExtension(lib: Lib, area: string, exchange: string, line: string, ext: string)
    requires AllDigits(area) && AllDigits(exchange) && AllDigits(line) && AllDigits(ext)
    requires |area| == 3 && |exchange| == 3 && |line| == 4 && |ext| <= 5
    ensures CleanPhone(lib, Text("(" + area + ") " + exchange + "-" + line + " ext " + ext))
         == Text(area + exchange + line + ext)
  {
    DigitsOfNonDigits("(");
    DigitsOfNonDigits(") ");
    DigitsOfNonDigits("-");
    DigitsOfNonDigits(" ext ");
    DigitsOfDigits(area);
    DigitsOfDigits(exchange);
    DigitsOfDigits(line);
    DigitsOfDigits(ext);
    var p1 := "(" + area;
    var p2 := p1 + ") ";
    var p3 := p2 + exchange;
    var p4 := p3 + "-";
    var p5 := p4 + line;
    var p6 := p5 + " ext ";
    var p7 := p6 + ext;
    DigitsAppend("(", area);
    DigitsAppend(p1, ") ");
    DigitsAppend(p2, exchange);
    DigitsAppend(p3, "-");
    DigitsAppend(p4, line);
    DigitsAppend(p5, " ext ");
    DigitsAppend(p6, ext);
    assert Digits(p7) == area + exchange + line + ext;
  }

  /** A number with fewer than ten digits, such as "555-1234", is dropped. */
  lemma CleanPhoneDropsShort(lib: Lib, prefix: string, suffix: string)
    requires AllDigits(prefix) && AllDigits(suffix) && |prefix| == 3 && |suffix| == 4
    ensures CleanPhone(lib, Text(prefix + "-" + suffix)) == Missing
  {
    DigitsOfNonDigits("-");
    DigitsOfDigits(prefix);
    DigitsOfDigits(suffix);
    DigitsAppend(prefix, "-");
    DigitsAppend(prefix + "-", suffix);
  }

  /** Token matching is exact: "n/a" is empty-like, "N/A" and a two-blank string are kept. */
  lemma EmptyLikeIsExact()
    ensures ReplaceEmptyLike(Text("n/a")) == Missing
    ensures ReplaceEmptyLike(Text("N/A")) == Text("N/A")
    ensures ReplaceEmptyLike(Text("  ")) == Text("  ")
  {
  }

  /** "Woman" and "M" are recognised whatever their case; any other word is dropped. */
  lemma GenderSamples(lib: Lib)
    ensures GenderCell(lib, Text("Woman")) == Text("female")
    ensures GenderCell(lib, Text("M")) == Text("male")
    ensures GenderCell(lib, Text("other")) == Missing
  {
    assert Lower("Woman") == "woman";
    assert Lower("M") == "m";
    assert Lower("other") == "other";
  }
}

=== FILE: stages.dfy ===
/**
 * The cleaning steps lifted to the whole table, and their composition in the order of
 * `clean_hospital_records` (cleaning.py) and of `main()` (main.py). Each function here is what
 * the matching method of the `Frame` class computes in place.
 */
module Stages {
  import opened Tables
  import opened Helpers
  import opened Steps

  /** Step 1 on the whole header: every column takes its cleaned name. */
  function Renamed(cols: seq<Column>): (r: seq<Column>)
    ensures |r| == |cols| && Names(r) == CleanNames(Names(cols))
    ensures forall j :: 0 <= j < |cols| ==> r[j] == cols[j].(name := CleanColumnName(cols[j].name))
    ensures forall n :: TableValid(cols, n) ==> TableValid(r, n)
  {
    var r := seq(|cols|, j requires 0 <= j < |cols| => cols[j].(name := CleanColumnName(cols[j].name)));
    assert Names(r) == CleanNames(Names(cols));
    r
  }

  /** Step 2 on every column. */
  function Replaced(cols: seq<Column>): (r: seq<Column>)
    ensures |r| == |cols| && Names(r) == Names(cols)
    ensures forall j :: 0 <= j < |cols| ==> r[j] == ReplaceEmptyColumn(cols[j])
    ensures forall n :: TableValid(cols, n) ==> TableValid(r, n)
  {
    var r := seq(|cols|, j requires 0 <= j < |cols| => ReplaceEmptyColumn(cols[j]));
    assert Names(r) == Names(cols);
    r
  }

  /** Step 3: the table keeps, in every column, only the rows `drop_duplicates()` keeps. */
  function Deduplicated(cols: seq<Column>, rows: nat): (r: seq<Column>)
    requires TableValid(cols, rows)
    ensures |r| == |cols| && Names(r) == Names(cols)
    ensures TableValid(r, |Dedup(Rows(cols, rows))|)
    ensures Rows(r, |Dedup(Rows(cols, rows))|) == Dedup(Rows(cols, rows))
  {
    var idx := KeptIndices(Rows(cols, rows));
    RowsOfDedup(cols, rows);
    var r := SelectRows(cols, rows, idx);
    assert Names(r) == Names(cols);
    r
  }

  /** Step 4 on every column. */
  function Trimmed(lib: Lib, cols: seq<Column>): (r: seq<Column>)
    ensures |r| == |cols| && Names(r) == Names(cols)
    ensures forall j :: 0 <= j < |cols| ==> r[j] == TrimColumn(lib, cols[j])
    ensures forall n :: TableValid(cols, n) ==> TableValid(r, n)
  {
    var r := seq(|cols|, j requires 0 <= j < |cols| => TrimColumn(lib, cols[j]));
    assert Names(r) == Names(cols);
    r
  }

  /** Step 5: the first of "gender" and "sex" present is mapped to male/female. */
  function Gendered(lib: Lib, cols: seq<Column>): (r: seq<Column>)
    ensures |r| == |cols| && Names(r) == Names(cols)
    ensures "gender" !in Names(cols) && "sex" !in Names(cols) ==> r == cols
    ensures forall n :: TableValid(cols, n) ==> TableValid(r, n)
  {
    var names := Names(cols);
    if "gender" in names || "sex" in names then
      var j := IndexOf(names, if "gender" in names then "gender" else "sex");
      var r := cols[j := GenderColumn(lib, cols[j])];
      assert Names(r) == names;
      r
    else cols
  }

  /** Which column step 5 rewrites: the "gender" column when there is one, otherwise the "sex"
      column, and it becomes `GenderColumn` of itself; every other column is kept. */
  lemma GenderedSpec(lib: Lib, cols: seq<Column>)
    ensures var names := Names(cols);
            if "gender" in names then
              var j := IndexOf(names, "gender");
              Gendered(lib, cols) == cols[j := GenderColumn(lib, cols[j])]
            else if "sex" in names then
              var j := IndexOf(names, "sex");
              Gendered(lib, cols) == cols[j := GenderColumn(lib, cols[j])]
            else Gendered(lib, cols) == cols
  {
  }

  /** Step 6: an "age" column is made numeric and implausible ages are dropped. */
  function Aged(lib: Lib, cols: seq<Column>): (r: seq<Column>)
    ensures |r| == |cols| && Names(r) == Names(cols)
    ensures AgesPlausible(r)
    ensures forall n :: TableValid(cols, n) ==> TableValid(r, n)
  {
    var names := Names(cols);
    if "age" in names then
      var j := IndexOf(names, "age");
      var r := cols[j := AgeColumn(lib, cols[j])];
      assert Names(r) == names;
      r
    else cols
  }

  /** Step 7 on every column. */
  function DatesParsed(lib: Lib, cols: seq<Column>): (r: seq<Column>)
    ensures |r| == |cols| && Names(r) == Names(cols)
    ensures forall j :: 0 <= j < |cols| ==> r[j] == DateColumn(lib, cols[j])
    ensures forall n :: TableValid(cols, n) ==> TableValid(r, n)
  {
    var r := seq(|cols|, j requires 0 <= j < |cols| => DateColumn(lib, cols[j]));
    assert Names(r) == Names(cols);
    r
  }

  /** The admission/discharge check: when both columns exist, inconsistent stays are cleared. */
  function StaysChecked(cols: seq<Column>, rows: nat): (r: seq<Column>)
    requires TableValid(cols, rows)
    ensures TableValid(r, rows) && |r| == |cols| && Names(r) == Names(cols)
    ensures StaysConsistent(r, rows)
    ensures AgesPlausible(cols) ==> AgesPlausible(r)
  {
    var names := Names(cols);
    if "admission_date" in names && "discharge_date" in names then
      var a := IndexOf(names, "admission_date");
      var d := IndexOf(names, "discharge_date");
      var cleared := ClearInconsistentDates(cols[a].cells, cols[d].cells);
      var r := cols[a := cols[a].(cells := cleared.0)][d := cols[d].(cells := cleared.1)];
      ClearStaysTable(cols, r, rows);
      r
    else cols
  }

  /** Step 8 on every column. */
  function PhonesCleaned(lib: Lib, cols: seq<Column>): (r: seq<Column>)
    ensures |r| == |cols| && Names(r) == Names(cols)
    ensures forall j :: 0 <= j < |cols| ==> r[j] == PhoneColumn(lib, cols[j])
    ensures forall n :: TableValid(cols, n) ==> TableValid(r, n)
  {
    var r := seq(|cols|, j requires 0 <= j < |cols| => PhoneColumn(lib, cols[j]));
    assert Names(r) == Names(cols);
    r
  }

  /** Step 9 on every column. */
  function Converted(lib: Lib, cols: seq<Column>): (r: seq<Column>)
    ensures |r| == |cols| && Names(r) == Names(cols)
    ensures forall j :: 0 <= j < |cols| ==> r[j] == ConvertNumericColumn(lib, cols[j])
    ensures forall n :: TableValid(cols, n) ==> TableValid(r, n)
  {
    var r := seq(|cols|, j requires 0 <= j < |cols| => ConvertNumericColumn(lib, cols[j]));
    assert Names(r) == Names(cols);
    r
  }

  /** Step 10 on every column. */
  function Capped(cols: seq<Column>): (r: seq<Column>)
    ensures |r| == |cols| && Names(r) == Names(cols)
    ensures forall j :: 0 <= j < |cols| ==> r[j] == CapColumn(cols[j])
    ensures forall n :: TableValid(cols, n) ==> TableValid(r, n)
  {
    var r := seq(|cols|, j requires 0 <= j < |cols| => CapColumn(cols[j]));
    assert Names(r) == Names(cols);
    r
  }

  /** Step 11 on every column: numeric gaps take the median, text gaps "unknown". */
  function Imputed(cols: seq<Column>): (r: seq<Column>)
    ensures |r| == |cols| && Names(r) == Names(cols)
    ensures forall j :: 0 <= j < |cols| ==> r[j] == FillText(FillNumeric(cols[j]))
    ensures forall n :: TableValid(cols, n) ==> TableValid(r, n) && NoGaps(r, n)
  {
    var r := seq(|cols|, j requires 0 <= j < |cols| => FillText(FillNumeric(cols[j])));
    assert Names(r) == Names(cols);
    forall n | TableValid(cols, n) ensures TableValid(r, n) && NoGaps(r, n) {
      ImputeTable(cols, r, n);
    }
    r
  }

  /** Steps 1 and 2: the table `drop_duplicates()` works on. */
  function Blanked(raw: seq<Column>): (r: seq<Column>)
    ensures |r| == |raw| && Names(r) == CleanNames(Names(raw))
    ensures forall n :: TableValid(raw, n) ==> TableValid(r, n)
  {
    Replaced(Renamed(raw))
  }

  /** The number of rows left after `drop_duplicates()`. */
  function KeptRows(raw: seq<Column>, rows: nat): (n: nat)
    requires TableValid(raw, rows)
    ensures n + DuplicatedCount(Rows(Blanked(raw), rows)) == rows
  {
    DuplicatedCountSpec(Rows(Blanked(raw), rows));
    |Dedup(Rows(Blanked(raw), rows))|
  }

  /** Steps 1 to 7, common to both entry points. */
  function Prepared(raw: seq<Column>, rows: nat, lib: Lib): (r: seq<Column>)
    requires TableValid(raw, rows)
    ensures TableValid(r, KeptRows(raw, rows)) && |r| == |raw| && Names(r) == CleanNames(Names(raw))
  {
    var t := Deduplicated(Blanked(raw), rows);
    DatesParsed(lib, Aged(lib, Gendered(lib, Trimmed(lib, t))))
  }

  /** Steps 8 to 11, common to both entry points. */
  function Finished(lib: Lib, cols: seq<Column>): (r: seq<Column>)
    ensures |r| == |cols| && Names(r) == Names(cols)
    ensures forall n :: TableValid(cols, n) ==> TableValid(r, n) && NoGaps(r, n)
  {
    Imputed(Capped(Converted(lib, PhonesCleaned(lib, cols))))
  }

  /** What `clean_hospital_records` returns as the cleaned table, with its row count. */
  function CleanedRecords(raw: seq<Column>, rows: nat, lib: Lib): (r: (seq<Column>, nat))
    requires TableValid(raw, rows)
    ensures r.1 == KeptRows(raw, rows) && TableValid(r.0, r.1)
    ensures |r.0| == |raw| && Names(r.0) == CleanNames(Names(raw))
  {
    var n := KeptRows(raw, rows);
    (Finished(lib, StaysChecked(Prepared(raw, rows, lib), n)), n)
  }

  /** What the cleaning core of `main()` leaves in `df`, with its row count. */
  function CleanedMain(raw: seq<Column>, rows: nat, lib: Lib): (r: (seq<Column>, nat))
    requires TableValid(raw, rows)
    ensures r.1 == KeptRows(raw, rows) && TableValid(r.0, r.1)
    ensures |r.0| == |raw| && Names(r.0) == CleanNames(Names(raw))
  {
    var n := KeptRows(raw, rows);
    (Finished(lib, Prepared(raw, rows, lib)), n)
  }
}

=== FILE: steps.dfy ===
/**
 * The cleaning steps of `clean_hospital_records` (cleaning.py) and `main()` (main.py), each as a
 * function on one cell, one column or the table's rows, with the properties each step promises.
 * The class in frames.dfy applies them to the table in the pipeline's order.
 */
module Steps {
  import opened Wrappers
  import opened Strings
  import opened Tables
  import opened Quantiles
  import opened Helpers

  // ---------------------------------------------------------------------------
  // Empty-like tokens
  // ---------------------------------------------------------------------------

  /** The strings `df.replace(EMPTY_LIKE, np.nan)` turns into missing values. */
  const EmptyTokens: seq<string> := ["n/a", "na", "none", "null", "unknown", "?", "??", "-", "", " "]

  /** A cell becomes missing exactly when it is a string equal, character for character, to one
      of the empty-like tokens; every other cell is left as it is. */
  function ReplaceEmptyLike(c: Cell): (r: Cell)
    ensures r == Missing <==> c == Missing || (c.Text? && c.s in EmptyTokens)
    ensures r != Missing ==> r == c
  {
    match c
    case Text(s) => if s in EmptyTokens then Missing else c
    case _ => c
  }

  function ReplaceEmptyColumn(col: Column): (r: Column)
    ensures r.name == col.name && r.kind == col.kind && |r.cells| == |col.cells|
    ensures forall i :: 0 <= i < |col.cells| ==> r.cells[i] == ReplaceEmptyLike(col.cells[i])
    ensures ColumnFits(col) ==> ColumnFits(r)
  {
    col.(cells := seq(|col.cells|, i requires 0 <= i < |col.cells| => ReplaceEmptyLike(col.cells[i])))
  }

  // ---------------------------------------------------------------------------
  // Duplicate rows
  // ---------------------------------------------------------------------------

  /** Row i is the first occurrence of its contents (`duplicated()` is false for it). */
  predicate FirstOccurrence(rs: seq<seq<Cell>>, i: nat)
    requires i < |rs|
  {
    rs[i] !in rs[..i]
  }

  predicate StrictlyIncreasing(idx: seq<nat>) {
    forall a, b :: 0 <= a < b < |idx| ==> idx[a] < idx[b]
  }

  /** The positions `drop_duplicates()` keeps: every first occurrence, in ascending order. */
  function KeptIndices(rs: seq<seq<Cell>>): (idx: seq<nat>)
    ensures forall k :: 0 <= k < |idx| ==> idx[k] < |rs|
    ensures StrictlyIncreasing(idx)
    ensures forall i :: 0 <= i < |rs| ==> (i in idx <==> FirstOccurrence(rs, i))
  {
    if rs == [] then []
    else
      var n := |rs| - 1;
      var front := rs[..n];
      var p := KeptIndices(front);
      assert forall i :: 0 <= i < n ==> front[..i] == rs[..i] && front[i] == rs[i];
      if rs[n] in front then p else p + [n]
  }

  /** `drop_duplicates().reset_index(drop=True)` on the rows. */
  function Dedup(rs: seq<seq<Cell>>): (out: seq<seq<Cell>>)
  {
    var idx := KeptIndices(rs);
    seq(|idx|, k requires 0 <= k < |idx| => rs[idx[k]])
  }

  /** Every row has a first occurrence at or before it. */
  lemma {:induction false} HasFirstOccurrence(rs: seq<seq<Cell>>, i: nat)
    requires i < |rs|
    ensures exists f :: 0 <= f <= i && rs[f] == rs[i] && FirstOccurrence(rs, f)
    decreases i
  {
    if !FirstOccurrence(rs, i) {
      var f :| 0 <= f < i && rs[..i][f] == rs[i];
      HasFirstOccurrence(rs, f);
    }
  }

  /** Deduplication leaves no two identical rows, loses no row's contents, keeps exactly the first
      occurrences in their original order, and removes `|rs| - |Dedup(rs)|` rows. */
  lemma DedupSpec(rs: seq<seq<Cell>>)
    ensures var out := Dedup(rs);
            && |out| <= |rs|
            && (forall a, b :: 0 <= a < b < |out| ==> out[a] != out[b])
            && (forall i :: 0 <= i < |rs| ==> rs[i] in out)
            && (forall r :: r in out ==> r in rs)
            && (forall k :: 0 <= k < |out| ==> out[k] == rs[KeptIndices(rs)[k]])
  {
    var idx := KeptIndices(rs);
    var out := Dedup(rs);
    forall a, b | 0 <= a < b < |out| ensures out[a] != out[b] {
      assert idx[a] < idx[b];
      assert FirstOccurrence(rs, idx[b]);
      assert rs[..idx[b]][idx[a]] == rs[idx[a]];
    }
    forall i | 0 <= i < |rs| ensures rs[i] in out {
      HasFirstOccurrence(rs, i);
      var f :| 0 <= f <= i && rs[f] == rs[i] && FirstOccurrence(rs, f);
      var k :| 0 <= k < |idx| && idx[k] == f;
      assert out[k] == rs[i];
    }
    assert |out| <= |rs| by {
      IncreasingBounded(idx, |rs|);
    }
  }

  /** A strictly increasing sequence of positions below n has at most n elements. */
  lemma {:induction false} IncreasingBounded(idx: seq<nat>, n: nat)
    requires StrictlyIncreasing(idx)
    requires forall k :: 0 <= k < |idx| ==> idx[k] < n
    ensures |idx| <= n
  {
    if idx != [] {
      var last := idx[|idx| - 1];
      var front := idx[..|idx| - 1];
      assert forall k :: 0 <= k < |front| ==> front[k] < last;
      IncreasingBounded(front, last);
    }
  }

  /** `duplicated().sum()`: the number of rows equal to an earlier row. */
  function DuplicatedCount(rs: seq<seq<Cell>>): nat {
    if rs == [] then 0
    else
      var n := |rs| - 1;
      DuplicatedCount(rs[..n]) + (if rs[n] in rs[..n] then 1 else 0)
  }

  /** The rows `drop_duplicates()` removes are exactly the ones `duplicated()` counts. */
  lemma {:induction false} DuplicatedCountSpec(rs: seq<seq<Cell>>)
    ensures DuplicatedCount(rs) + |Dedup(rs)| == |rs|
  {
    if rs != [] {
      DuplicatedCountSpec(rs[..|rs| - 1]);
    }
  }

  /** Keep the rows at the given positions, in that order. */
  function SelectRows(cols: seq<Column>, rows: nat, idx: seq<nat>): (r: seq<Column>)
    requires TableValid(cols, rows)
    requires forall k :: 0 <= k < |idx| ==> idx[k] < rows
    ensures |r| == |cols| && TableValid(r, |idx|)
    ensures forall j :: 0 <= j < |cols| ==> r[j].name == cols[j].name && r[j].kind == cols[j].kind
    ensures forall j, k :: 0 <= j < |cols| && 0 <= k < |idx| ==> r[j].cells[k] == cols[j].cells[idx[k]]
  {
    seq(|cols|, j requires 0 <= j < |cols| =>
      cols[j].(cells := seq(|idx|, k requires 0 <= k < |idx| => cols[j].cells[idx[k]])))
  }

  /** Selecting the kept positions column by column yields the deduplicated rows. */
  lemma RowsOfDedup(cols: seq<Column>, rows: nat)
    requires TableValid(cols, rows)
    ensures var idx := KeptIndices(Rows(cols, rows));
            Rows(SelectRows(cols, rows, idx), |idx|) == Dedup(Rows(cols, rows))
  {
    var rs := Rows(cols, rows);
    var idx := KeptIndices(rs);
    var sel := SelectRows(cols, rows, idx);
    var l, r := Rows(sel, |idx|), Dedup(rs);
    forall k | 0 <= k < |idx| ensures l[k] == r[k] {
      assert l[k] == Row(sel, |idx|, k);
      assert r[k] == Row(cols, rows, idx[k]);
    }
  }

  // ---------------------------------------------------------------------------
  // Text trimming
  // ---------------------------------------------------------------------------

  /** `.astype("string").str.strip()` on one cell. */
  function TrimCell(lib: Lib, c: Cell): (r: Cell)
    ensures c == Missing ==> r == Missing
    ensures c.Text? ==> r == Text(Strip(c.s))
    ensures Fits(TextKind, r)
  {
    if c == Missing then Missing else Text(Strip(Str(lib, c)))
  }

  /** Step 4: trim every text column; other columns are left alone. */
  function TrimColumn(lib: Lib, col: Column): (r: Column)
    ensures r.name == col.name && r.kind == col.kind && |r.cells| == |col.cells|
    ensures col.kind != TextKind ==> r == col
    ensures col.kind == TextKind ==> forall i :: 0 <= i < |col.cells| ==> r.cells[i] == TrimCell(lib, col.cells[i])
    ensures ColumnFits(col) ==> ColumnFits(r)
  {
    if col.kind != TextKind then col
    else col.(cells := seq(|col.cells|, i requires 0 <= i < |col.cells| => TrimCell(lib, col.cells[i])))
  }

  /** Trimming twice is trimming once. */
  lemma StripIdempotent(s: string)
    ensures Strip(Strip(s)) == Strip(s)
  {
    StripIsWhitespaceTrim(s);
    var t := Strip(s);
    if t != [] {
      assert TrimStart(t) == t;
      assert TrimEnd(t) == t;
    }
  }

  // ---------------------------------------------------------------------------
  // Gender
  // ---------------------------------------------------------------------------

  const MaleWords: seq<string> := ["m", "male", "man"]
  const FemaleWords: seq<string> := ["f", "female", "woman"]

  /** `.map(gender_map)` on one lower-cased value: anything outside the map becomes missing. */
  function GenderOf(s: string): (r: Cell)
    ensures r == Text("male") <==> s in MaleWords
    ensures r == Text("female") <==> s in FemaleWords
    ensures r == Missing <==> s !in MaleWords && s !in FemaleWords
  {
    if s in MaleWords then Text("male")
    else if s in FemaleWords then Text("female")
    else Missing
  }

  /** `.astype("string").str.lower().map(gender_map)` on one cell. */
  function GenderCell(lib: Lib, c: Cell): (r: Cell)
    ensures r == Missing || r == Text("male") || r == Text("female")
    ensures c == Missing ==> r == Missing
    ensures c != Missing ==>
              && (r == Text("male") <==> Lower(Str(lib, c)) in MaleWords)
              && (r == Text("female") <==> Lower(Str(lib, c)) in FemaleWords)
  {
    if c == Missing then Missing else GenderOf(Lower(Str(lib, c)))
  }

  /** Step 5 on the chosen column: it becomes a text column of "male", "female" and missing. */
  function GenderColumn(lib: Lib, col: Column): (r: Column)
    ensures r.name == col.name && r.kind == TextKind && |r.cells| == |col.cells|
    ensures forall i :: 0 <= i < |col.cells| ==> r.cells[i] == GenderCell(lib, col.cells[i])
    ensures forall i :: 0 <= i < |r.cells| ==>
              r.cells[i] in {Missing, Text("male"), Text("female")}
    ensures ColumnFits(r)
  {
    Column(col.name, TextKind, seq(|col.cells|, i requires 0 <= i < |col.cells| => GenderCell(lib, col.cells[i])))
  }

  // ---------------------------------------------------------------------------
  // Age
  // ---------------------------------------------------------------------------

  /** `pd.to_numeric(errors="coerce")`, then ages below 0 or above 120 set to missing. */
  function AgeCell(lib: Lib, c: Cell): (r: Cell)
    ensures r == Missing || (r.Num? && 0.0 <= r.x <= 120.0)
    ensures var n := ToNumeric(lib, c);
            r == if n.Num? && 0.0 <= n.x <= 120.0 then n else Missing
  {
    var n := ToNumeric(lib, c);
    if n.Num? && (n.x < 0.0 || n.x > 120.0) then Missing else n
  }

  /** Step 6 on the `age` column: a numeric column whose every value lies in [0, 120]. */
  function AgeColumn(lib: Lib, col: Column): (r: Column)
    ensures r.name == col.name && r.kind == NumKind && |r.cells| == |col.cells|
    ensures forall i :: 0 <= i < |col.cells| ==> r.cells[i] == AgeCell(lib, col.cells[i])
    ensures ColumnFits(r)
  {
    Column(col.name, NumKind, seq(|col.cells|, i requires 0 <= i < |col.cells| => AgeCell(lib, col.cells[i])))
  }

  // ---------------------------------------------------------------------------
  // Dates
  // ---------------------------------------------------------------------------

  const DateKeywords: seq<string> := ["date", "admission", "discharge", "dob"]

  /** Step 7: a column whose name mentions a date keyword is parsed with `pd.to_datetime(errors="coerce")`. */
  function DateColumn(lib: Lib, col: Column): (r: Column)
    ensures r.name == col.name && |r.cells| == |col.cells|
    ensures !ContainsAny(col.name, DateKeywords) ==> r == col
    ensures ContainsAny(col.name, DateKeywords) ==>
              && r.kind == DateKind && ColumnFits(r)
              && forall i :: 0 <= i < |col.cells| ==> r.cells[i] == ToDatetime(lib, col.cells[i])
    ensures ColumnFits(col) ==> ColumnFits(r)
  {
    if !ContainsAny(col.name, DateKeywords) then col
    else Column(col.name, DateKind, seq(|col.cells|, i requires 0 <= i < |col.cells| => ToDatetime(lib, col.cells[i])))
  }

  /** A row whose discharge date precedes its admission date (NaT compares false). */
  predicate DischargeBeforeAdmission(admission: Cell, discharge: Cell) {
    admission.Date? && discharge.Date? && discharge.t < admission.t
  }

  /** The admission/discharge check: in an inconsistent row both dates become missing; every other
      row keeps both. */
  function ClearInconsistentDates(admission: seq<Cell>, discharge: seq<Cell>): (r: (seq<Cell>, seq<Cell>))
    requires |admission| == |discharge|
    ensures |r.0| == |admission| && |r.1| == |discharge|
    ensures forall i :: 0 <= i < |admission| ==>
              if DischargeBeforeAdmission(admission[i], discharge[i])
              then r.0[i] == Missing && r.1[i] == Missing
              else r.0[i] == admission[i] && r.1[i] == discharge[i]
  {
    var n := |admission|;
    (seq(n, i requires 0 <= i < n => if DischargeBeforeAdmission(admission[i], discharge[i]) then Missing else admission[i]),
     seq(n, i requires 0 <= i < n => if DischargeBeforeAdmission(admission[i], discharge[i]) then Missing else discharge[i]))
  }

  /** After the check no row has its discharge before its admission. */
  lemma ClearedDatesConsistent(admission: seq<Cell>, discharge: seq<Cell>)
    requires |admission| == |discharge|
    ensures var (a, d) := ClearInconsistentDates(admission, discharge);
            forall i :: 0 <= i < |a| ==> !DischargeBeforeAdmission(a[i], d[i])
  {
  }

  // ---------------------------------------------------------------------------
  // Phones
  // ---------------------------------------------------------------------------

  const PhoneKeywords: seq<string> := ["phone", "mobile", "contact"]

  /** Step 8: a column whose name mentions a phone keyword has `clean_phone` applied to each cell. */
  function PhoneColumn(lib: Lib, col: Column): (r: Column)
    ensures r.name == col.name && |r.cells| == |col.cells|
    ensures !ContainsAny(col.name, PhoneKeywords) ==> r == col
    ensures ContainsAny(col.name, PhoneKeywords) ==>
              && r.kind == TextKind
              && forall i :: 0 <= i < |col.cells| ==> r.cells[i] == CleanPhone(lib, col.cells[i])
    ensures ColumnFits(col) ==> ColumnFits(r)
  {
    if !ContainsAny(col.name, PhoneKeywords) then col
    else Column(col.name, TextKind, seq(|col.cells|, i requires 0 <= i < |col.cells| => CleanPhone(lib, col.cells[i])))
  }

  // ---------------------------------------------------------------------------
  // Numeric-looking text
  // ---------------------------------------------------------------------------

  /** `pd.to_numeric(col, errors="coerce")` on a whole column. */
  function Coerced(lib: Lib, cells: seq<Cell>): (r: seq<Cell>)
    ensures |r| == |cells|
    ensures forall i :: 0 <= i < |cells| ==> r[i] == ToNumeric(lib, cells[i])
  {
    seq(|cells|, i requires 0 <= i < |cells| => ToNumeric(lib, cells[i]))
  }

  /** `converted.notna().mean() > 0.70`: more than 70% of ALL the column's cells coerce (the mean of
      an empty column is NaN, which is not greater than 0.70). */
  predicate MostlyNumeric(lib: Lib, cells: seq<Cell>) {
    var n := |cells|;
    n > 0 && (n - MissingCount(Coerced(lib, cells))) * 10 > 7 * n
  }

  /** Step 9: a text column is replaced by its coerced values when they are mostly numeric. */
  function ConvertNumericColumn(lib: Lib, col: Column): (r: Column)
    ensures r.name == col.name && |r.cells| == |col.cells|
    ensures ColumnFits(col) ==> ColumnFits(r)
  {
    if col.kind == TextKind && MostlyNumeric(lib, col.cells)
    then Column(col.name, NumKind, Coerced(lib, col.cells))
    else col
  }

  /** A text column is converted exactly when the share of its cells that coerce to numbers
      exceeds 0.70 (so never when it is empty); a converted column holds the coerced values and
      more than 70% of it is present; any other column is untouched. */
  lemma ConvertNumericSpec(lib: Lib, col: Column)
    ensures var r := ConvertNumericColumn(lib, col);
            var n := |col.cells|;
            var ok := n - MissingCount(Coerced(lib, col.cells));
            && (r.kind == NumKind && col.kind == TextKind <==>
                  col.kind == TextKind && n > 0 && (ok as real) / (n as real) > 0.70)
            && (col.kind == TextKind && r.kind == NumKind ==>
                  r.cells == Coerced(lib, col.cells) && MissingCount(r.cells) * 10 < 3 * n)
            && (r.kind != NumKind || col.kind != TextKind ==> r == col)
            && (n == 0 ==> r == col)
  {
    var n := |col.cells|;
    var ok := n - MissingCount(Coerced(lib, col.cells));
    if n > 0 {
      assert (ok as real) / (n as real) > 0.70 <==> ok * 10 > 7 * n by {
        RatioAbove(ok, n);
      }
    }
  }

  lemma RatioAbove(ok: int, n: nat)
    requires n > 0
    ensures (ok as real) / (n as real) > 0.70 <==> ok * 10 > 7 * n
  {
    var q := (ok as real) / (n as real);
    assert q * (n as real) == ok as real;
    if q > 0.70 {
      assert (ok as real) > 0.70 * (n as real) by {
        MulStrict(q, 0.70, n as real);
      }
    } else {
      assert (ok as real) <= 0.70 * (n as real) by {
        MulMonotone(q, 0.70, n as real);
      }
    }
  }

  lemma MulStrict(a: real, b: real, c: real)
    requires a > b && c > 0.0
    ensures a * c > b * c
  {
  }

  lemma MulMonotone(a: real, b: real, c: real)
    requires a <= b && c > 0.0
    ensures a * c <= b * c
  {
  }

  // ---------------------------------------------------------------------------
  // Outlier capping
  // ---------------------------------------------------------------------------

  /** The columns step 10 caps: numeric ones whose name does not contain "id". */
  predicate IsCapped(col: Column) {
    col.kind == NumKind && !Contains(col.name, "id")
  }

  /** Step 10: the capped columns go through `cap_outliers_iqr`; the others are left alone. */
  function CapColumn(col: Column): (r: Column)
    ensures r.name == col.name && r.kind == col.kind && |r.cells| == |col.cells|
    ensures !IsCapped(col) ==> r == col
    ensures IsCapped(col) ==> r.cells == CapOutliersIqr(col.cells)
    ensures ColumnFits(col) ==> ColumnFits(r)
  {
    if IsCapped(col) then col.(cells := CapOutliersIqr(col.cells)) else col
  }

  // ---------------------------------------------------------------------------
  // Imputation
  // ---------------------------------------------------------------------------

  /** Step 11, numeric part: `fillna(median)`; an all-missing column has a NaN median and stays as it is. */
  function FillNumeric(col: Column): (r: Column)
    ensures r.name == col.name && r.kind == col.kind && |r.cells| == |col.cells|
    ensures ColumnFits(col) ==> ColumnFits(r)
  {
    var vals := NumValues(col.cells);
    if col.kind != NumKind || |vals| == 0 then col
    else
      var m := Median(vals);
      col.(cells := seq(|col.cells|, i requires 0 <= i < |col.cells| =>
                          if col.cells[i] == Missing then Num(m) else col.cells[i]))
  }

  /** Step 11, text part: `fillna("unknown")`. */
  function FillText(col: Column): (r: Column)
    ensures r.name == col.name && r.kind == col.kind && |r.cells| == |col.cells|
    ensures ColumnFits(col) ==> ColumnFits(r)
  {
    if col.kind != TextKind then col
    else col.(cells := seq(|col.cells|, i requires 0 <= i < |col.cells| =>
                             if col.cells[i] == Missing then Text("unknown") else col.cells[i]))
  }

  /** After imputation a text column has no missing cell, and neither has a numeric column with at
      least one value; every present cell keeps its value; a filled numeric cell holds the median,
      which lies between the column's smallest and largest value; date columns are untouched. */
  lemma ImputeSpec(col: Column)
    requires ColumnFits(col)
    ensures var r := FillText(FillNumeric(col));
            var vals := NumValues(col.cells);
            && (col.kind == TextKind ==> MissingCount(r.cells) == 0)
            && (col.kind == TextKind ==>
                  forall i :: 0 <= i < |col.cells| && col.cells[i] == Missing ==> r.cells[i] == Text("unknown"))
            && (col.kind == NumKind && |vals| > 0 ==> MissingCount(r.cells) == 0)
            && (col.kind == NumKind && |vals| == 0 ==> r == col)
            && (col.kind == DateKind ==> r == col)
            && (forall i :: 0 <= i < |col.cells| && col.cells[i] != Missing ==> r.cells[i] == col.cells[i])
            && (col.kind == NumKind && |vals| > 0 ==>
                  forall i :: 0 <= i < |col.cells| && col.cells[i] == Missing ==>
                    r.cells[i] == Num(Median(vals))
                    && (exists a :: 0 <= a < |vals| && vals[a] <= r.cells[i].x)
                    && (exists b :: 0 <= b < |vals| && r.cells[i].x <= vals[b]))
  {
    FillNumericSpec(col);
    FillTextSpec(FillNumeric(col));
  }

  /** The numeric half of imputation: gaps of a numeric column with a value take the median. */
  lemma FillNumericSpec(col: Column)
    requires ColumnFits(col)
    ensures var r := FillNumeric(col);
            var vals := NumValues(col.cells);
            && (col.kind != NumKind || |vals| == 0 ==> r == col)
            && (forall i :: 0 <= i < |col.cells| && col.cells[i] != Missing ==> r.cells[i] == col.cells[i])
            && (col.kind == NumKind && |vals| > 0 ==>
                  && MissingCount(r.cells) == 0
                  && forall i :: 0 <= i < |col.cells| && col.cells[i] == Missing ==>
                       r.cells[i] == Num(Median(vals))
                       && (exists a :: 0 <= a < |vals| && vals[a] <= r.cells[i].x)
                       && (exists b :: 0 <= b < |vals| && r.cells[i].x <= vals[b]))
  {
    var vals := NumValues(col.cells);
    if col.kind == NumKind && |vals| > 0 {
      var m := Median(vals);
      MedianOfValues(vals);
      var r := FillNumeric(col);
      forall i | 0 <= i < |r.cells|
        ensures r.cells[i] == if col.cells[i] == Missing then Num(m) else col.cells[i]
      {
      }
      assert forall i :: 0 <= i < |r.cells| ==> r.cells[i] != Missing;
    }
  }

  /** The text half of imputation: every gap of a text column becomes "unknown". */
  lemma FillTextSpec(col: Column)
    ensures var r := FillText(col);
            && (col.kind != TextKind ==> r == col)
            && (forall i :: 0 <= i < |col.cells| && col.cells[i] != Missing ==> r.cells[i] == col.cells[i])
            && (col.kind == TextKind ==>
                  && MissingCount(r.cells) == 0
                  && forall i :: 0 <= i < |col.cells| && col.cells[i] == Missing ==> r.cells[i] == Text("unknown"))
  {
  }

  // ---------------------------------------------------------------------------
  // Which steps touch the columns the pipeline cleans by name
  // ---------------------------------------------------------------------------

  /** "age" is neither date-like nor phone-like, and is capped (it does not contain "id"). */
  lemma AgeNameFacts()
    ensures !ContainsAny("age", DateKeywords) && !ContainsAny("age", PhoneKeywords)
    ensures !Contains("age", "id")
  {
    var name := "age";
    forall i | 0 <= i < |DateKeywords| ensures !Contains(name, DateKeywords[i]) {
      AbsentCharNotContained(name, DateKeywords[i], 'd');
    }
    forall i | 0 <= i < |PhoneKeywords| ensures !Contains(name, PhoneKeywords[i]) {
      var c := if i == 0 then 'p' else if i == 1 then 'm' else 'c';
      AbsentCharNotContained(name, PhoneKeywords[i], c);
    }
    AbsentCharNotContained(name, "id", 'i');
  }

  // ---------------------------------------------------------------------------
  // Value ranges the later steps keep
  // ---------------------------------------------------------------------------

  /** Every number in the cells lies in [lo, hi]. */
  predicate NumsWithin(cells: seq<Cell>, lo: real, hi: real) {
    forall i :: 0 <= i < |cells| && cells[i].Num? ==> lo <= cells[i].x <= hi
  }

  /** Capping never moves a value out of a range that held all the column's values. */
  lemma CapKeepsRange(cells: seq<Cell>, lo: real, hi: real)
    requires NumsWithin(cells, lo, hi)
    ensures NumsWithin(CapOutliersIqr(cells), lo, hi)
  {
    var r := CapOutliersIqr(cells);
    if Fences(cells).Some? {
      var v := NumValues(cells);
      var (lower, upper) := Fences(cells).value;
      var q1, q3 := Quantile(v, 0.25), Quantile(v, 0.75);
      var b :| 0 <= b < |v| && q1 <= v[b];
      var a :| 0 <= a < |v| && v[a] <= q3;
      assert Num(v[b]) in cells && Num(v[a]) in cells;
      assert v[b] <= hi && lo <= v[a];
      forall i | 0 <= i < |cells| && r[i].Num? ensures lo <= r[i].x <= hi {
        assert cells[i].Num?;
      }
    }
  }

  /** A numeric column whose values lie in [lo, hi] still does after median imputation. */
  lemma FillKeepsRange(col: Column, lo: real, hi: real)
    requires NumsWithin(col.cells, lo, hi)
    ensures NumsWithin(FillNumeric(col).cells, lo, hi)
  {
    var vals := NumValues(col.cells);
    if col.kind == NumKind && |vals| > 0 {
      var m := Median(vals);
      MedianOfValues(vals);
      var a :| 0 <= a < |vals| && vals[a] <= m;
      var b :| 0 <= b < |vals| && m <= vals[b];
      assert Num(vals[a]) in col.cells && Num(vals[b]) in col.cells;
      assert lo <= m <= hi;
      var r := FillNumeric(col).cells;
      forall i | 0 <= i < |r| && r[i].Num? ensures lo <= r[i].x <= hi {
        assert r[i] == if col.cells[i] == Missing then Num(m) else col.cells[i];
      }
    }
  }

  // ---------------------------------------------------------------------------
  // Guarantees about the whole table
  // ---------------------------------------------------------------------------

  /** What imputation leaves behind: no text column has a missing cell, and a numeric column is
      either complete or entirely missing (it had no value to take the median of). */
  predicate NoGaps(cols: seq<Column>, rows: nat) {
    forall j :: 0 <= j < |cols| ==>
      && (cols[j].kind == TextKind ==> MissingCount(cols[j].cells) == 0)
      && (cols[j].kind == NumKind ==> MissingCount(cols[j].cells) == 0 || MissingCount(cols[j].cells) == rows)
  }

  /** The `age` column, when there is one, is numeric and holds only ages in [0, 120]. */
  predicate AgesPlausible(cols: seq<Column>) {
    "age" in Names(cols) ==>
      var a := cols[IndexOf(Names(cols), "age")];
      a.kind == NumKind && NumsWithin(a.cells, 0.0, 120.0)
  }

  /** When both stay columns exist, no row's discharge date precedes its admission date. */
  predicate StaysConsistent(cols: seq<Column>, rows: nat)
    requires TableValid(cols, rows)
  {
    "admission_date" in Names(cols) && "discharge_date" in Names(cols) ==>
      var a := cols[IndexOf(Names(cols), "admission_date")];
      var d := cols[IndexOf(Names(cols), "discharge_date")];
      forall i :: 0 <= i < rows ==> !DischargeBeforeAdmission(a.cells[i], d.cells[i])
  }

  /** A step introduces no timestamp: every timestamp it leaves was already there. */
  predicate DatesKept(before: Column, after: Column) {
    |after.cells| == |before.cells| &&
    forall i :: 0 <= i < |after.cells| && after.cells[i].Date? ==> after.cells[i] == before.cells[i]
  }

  /** Clearing the inconsistent stays of a table makes it consistent, renames nothing and leaves
      every other column, the ages among them, as it was. */
  lemma ClearStaysTable(before: seq<Column>, after: seq<Column>, rows: nat)
    requires TableValid(before, rows)
    requires "admission_date" in Names(before) && "discharge_date" in Names(before)
    requires var a := IndexOf(Names(before), "admission_date");
             var d := IndexOf(Names(before), "discharge_date");
             var cleared := ClearInconsistentDates(before[a].cells, before[d].cells);
             after == before[a := before[a].(cells := cleared.0)][d := before[d].(cells := cleared.1)]
    ensures TableValid(after, rows) && Names(after) == Names(before)
    ensures StaysConsistent(after, rows)
    ensures AgesPlausible(before) ==> AgesPlausible(after)
  {
    var names := Names(before);
    var a := IndexOf(names, "admission_date");
    var d := IndexOf(names, "discharge_date");
    assert Names(after) == names;
    ClearedDatesConsistent(before[a].cells, before[d].cells);
    if "age" in names {
      var g := IndexOf(names, "age");
      assert g != a && g != d;
      assert after[g] == before[g];
    }
  }

  /** Steps that introduce no timestamp cannot make a consistent table inconsistent. */
  lemma StaysConsistentKept(before: seq<Column>, after: seq<Column>, rows: nat)
    requires TableValid(before, rows) && TableValid(after, rows)
    requires Names(after) == Names(before)
    requires forall j :: 0 <= j < |before| ==> DatesKept(before[j], after[j])
    requires StaysConsistent(before, rows)
    ensures StaysConsistent(after, rows)
  {
  }

  /** Phone cleaning introduces no timestamp. */
  lemma PhoneKeepsDates(lib: Lib, col: Column)
    ensures DatesKept(col, PhoneColumn(lib, col))
  {
  }

  /** Numeric conversion introduces no timestamp. */
  lemma ConvertKeepsDates(lib: Lib, col: Column)
    ensures DatesKept(col, ConvertNumericColumn(lib, col))
  {
    var c := ConvertNumericColumn(lib, col);
    if col.kind == TextKind && MostlyNumeric(lib, col.cells) {
      assert forall i :: 0 <= i < |c.cells| ==> Fits(NumKind, c.cells[i]);
    }
  }

  /** Capping introduces no timestamp. */
  lemma CapKeepsDates(col: Column)
    ensures DatesKept(col, CapColumn(col))
  {
  }

  /** Imputation introduces no timestamp. */
  lemma FillKeepsDates(col: Column)
    ensures DatesKept(col, FillText(FillNumeric(col)))
  {
  }

  /** Converting the mostly-numeric text columns renames nothing, leaves the numeric `age` column
      alone and introduces no timestamp, so plausible ages and consistent stays survive it. */
  lemma ConvertTable(lib: Lib, before: seq<Column>, after: seq<Column>, rows: nat)
    requires TableValid(before, rows) && TableValid(after, rows)
    requires |after| == |before|
    requires forall j :: 0 <= j < |before| ==> after[j] == ConvertNumericColumn(lib, before[j])
    ensures Names(after) == Names(before)
    ensures AgesPlausible(before) ==> AgesPlausible(after)
    ensures StaysConsistent(before, rows) ==> StaysConsistent(after, rows)
  {
    assert Names(after) == Names(before);
    forall j | 0 <= j < |before| ensures DatesKept(before[j], after[j]) {
      ConvertKeepsDates(lib, before[j]);
    }
    if StaysConsistent(before, rows) {
      StaysConsistentKept(before, after, rows);
    }
  }

  /** Imputing every column of a table leaves it without gaps, and keeps plausible ages and
      consistent stays. */
  lemma ImputeTable(before: seq<Column>, after: seq<Column>, rows: nat)
    requires TableValid(before, rows)
    requires |after| == |before|
    requires forall j :: 0 <= j < |before| ==> after[j] == FillText(FillNumeric(before[j]))
    ensures TableValid(after, rows) && Names(after) == Names(before)
    ensures NoGaps(after, rows)
    ensures AgesPlausible(before) ==> AgesPlausible(after)
    ensures StaysConsistent(before, rows) ==> StaysConsistent(after, rows)
  {
    ImputeKeepsShape(before, after, rows);
    ImputeLeavesNoGaps(before, after, rows);
    ImputeKeepsAges(before, after);
    forall j | 0 <= j < |before| ensures DatesKept(before[j], after[j]) {
      FillKeepsDates(before[j]);
    }
    if StaysConsistent(before, rows) {
      StaysConsistentKept(before, after, rows);
    }
  }

  /** Imputation keeps the table's shape: the same names, and every cell fits its column. */
  lemma ImputeKeepsShape(before: seq<Column>, after: seq<Column>, rows: nat)
    requires TableValid(before, rows)
    requires |after| == |before|
    requires forall j :: 0 <= j < |before| ==> after[j] == FillText(FillNumeric(before[j]))
    ensures TableValid(after, rows) && Names(after) == Names(before)
  {
    assert Names(after) == Names(before);
  }

  /** Median imputation keeps plausible ages plausible. */
  lemma ImputeKeepsAges(before: seq<Column>, after: seq<Column>)
    requires |after| == |before|
    requires forall j :: 0 <= j < |before| ==> after[j] == FillText(FillNumeric(before[j]))
    ensures AgesPlausible(before) ==> AgesPlausible(after)
  {
    assert Names(after) == Names(before);
    if "age" in Names(before) && AgesPlausible(before) {
      FillKeepsRange(before[IndexOf(Names(before), "age")], 0.0, 120.0);
    }
  }

  /** The gap part of `ImputeTable`, column by column. */
  lemma ImputeLeavesNoGaps(before: seq<Column>, after: seq<Column>, rows: nat)
    requires TableValid(before, rows)
    requires |after| == |before|
    requires forall j :: 0 <= j < |before| ==> after[j] == FillText(FillNumeric(before[j]))
    ensures NoGaps(after, rows)
  {
    forall j | 0 <= j < |after|
      ensures && (after[j].kind == TextKind ==> MissingCount(after[j].cells) == 0)
              && (after[j].kind == NumKind ==>
                    MissingCount(after[j].cells) == 0 || MissingCount(after[j].cells) == rows)
    {
      ImputeSpec(before[j]);
    }
  }
}

=== FILE: strings.dfy ===
/**
 * The parts of Python's `str` and `re` behaviour that the cleaning helpers rely on,
 * restricted to ASCII: `str.isspace`, `str.lower`, `str.strip`, the regex classes
 * `\s` and `\d`, and the substring test `k in c`.
 */
module Strings {

  /** Python's `str.isspace` (and the regex class `\s`) on ASCII: space, \t \n \v \f \r and \x1c-\x1f. */
  predicate IsSpace(c: char) {
    c == ' ' || 9 <= c as int <= 13 || 28 <= c as int <= 31
  }

  /** The regex class `\d` on ASCII. */
  predicate IsDigit(c: char) {
    '0' <= c <= '9'
  }

  predicate IsUpper(c: char) {
    'A' <= c <= 'Z'
  }

  /** The characters a cleaned column name may hold: `[a-z0-9_]`. */
  predicate IsNameChar(c: char) {
    'a' <= c <= 'z' || IsDigit(c) || c == '_'
  }

  predicate AllNameChars(s: string) {
    forall k :: 0 <= k < |s| ==> IsNameChar(s[k])
  }

  predicate NoSpace(s: string) {
    forall k :: 0 <= k < |s| ==> !IsSpace(s[k])
  }

  predicate AllDigits(s: string) {
    forall k :: 0 <= k < |s| ==> IsDigit(s[k])
  }

  function LowerChar(c: char): (r: char)
    ensures !IsUpper(r)
    ensures IsUpper(c) ==> r as int == c as int + 32
    ensures !IsUpper(c) ==> r == c
  {
    if IsUpper(c) then (c as int + 32) as char else c
  }

  /** `str.lower()` on ASCII letters; every other character is kept. */
  function Lower(s: string): (r: string)
    ensures |r| == |s|
    ensures forall k :: 0 <= k < |s| ==> r[k] == LowerChar(s[k])
  {
    seq(|s|, k requires 0 <= k < |s| => LowerChar(s[k]))
  }

  /** `str.lstrip()`: drops the leading whitespace, and only that. */
  function TrimStart(s: string): (r: string)
    ensures |r| <= |s| && r == s[|s| - |r|..]
    ensures r == [] || !IsSpace(r[0])
    ensures forall k :: 0 <= k < |s| - |r| ==> IsSpace(s[k])
  {
    if s != [] && IsSpace(s[0]) then TrimStart(s[1..]) else s
  }

  /** `str.rstrip()`: drops the trailing whitespace, and only that. */
  function TrimEnd(s: string): (r: string)
    ensures |r| <= |s| && r == s[..|r|]
    ensures r == [] || !IsSpace(r[|r| - 1])
    ensures forall k :: |r| <= k < |s| ==> IsSpace(s[k])
  {
    if s != [] && IsSpace(s[|s| - 1]) then TrimEnd(s[..|s| - 1]) else s
  }

  /** `str.strip()`. */
  function Strip(s: string): (r: string)
  {
    TrimEnd(TrimStart(s))
  }

  /** s[i..j] is what remains of s after cutting whitespace off both ends. */
  predicate TrimmedSlice(s: string, i: int, j: int) {
    && 0 <= i <= j <= |s|
    && (forall k :: 0 <= k < i ==> IsSpace(s[k]))
    && (forall k :: j <= k < |s| ==> IsSpace(s[k]))
  }

  /** Strip returns a slice of its input that neither starts nor ends with whitespace, and
      what it cuts off on either side is whitespace only. */
  lemma StripIsWhitespaceTrim(s: string)
    ensures exists i, j :: TrimmedSlice(s, i, j) && Strip(s) == s[i..j]
    ensures Strip(s) == [] || (!IsSpace(Strip(s)[0]) && !IsSpace(Strip(s)[|Strip(s)| - 1]))
  {
    var t := TrimStart(s);
    var r := TrimEnd(t);
    CutBothEnds(s, t, r);
    var i := |s| - |t|;
    assert TrimmedSlice(s, i, i + |r|) && r == s[i..i + |r|];
    StripEnds(s);
  }

  /** Cutting a whitespace prefix and then a whitespace suffix leaves a trimmed slice. */
  lemma CutBothEnds(s: string, t: string, r: string)
    requires |t| <= |s| && t == s[|s| - |t|..]
    requires forall k :: 0 <= k < |s| - |t| ==> IsSpace(s[k])
    requires |r| <= |t| && r == t[..|r|]
    requires forall k :: |r| <= k < |t| ==> IsSpace(t[k])
    ensures TrimmedSlice(s, |s| - |t|, |s| - |t| + |r|)
    ensures r == s[|s| - |t|..|s| - |t| + |r|]
  {
    var i := |s| - |t|;
    forall k | 0 <= k < |r| ensures r[k] == s[i + k] {
      assert r[k] == t[k];
    }
    forall k | i + |r| <= k < |s| ensures IsSpace(s[k]) {
      assert s[k] == t[k - i];
    }
  }

  /** What Strip returns neither starts nor ends with whitespace. */
  lemma StripEnds(s: string)
    ensures Strip(s) == [] || (!IsSpace(Strip(s)[0]) && !IsSpace(Strip(s)[|Strip(s)| - 1]))
  {
    var t := TrimStart(s);
    var r := TrimEnd(t);
    if r != [] {
      assert r[0] == t[0];
    }
  }

  /** Strip leaves a string unchanged when it neither starts nor ends with whitespace. */
  lemma StripNoSpace(s: string)
    requires NoSpace(s)
    ensures Strip(s) == s
  {
  }

  /** `re.sub(r"\s+", "_", s)`: every maximal run of whitespace becomes one underscore. */
  function CollapseSpaces(s: string): (r: string)
    ensures NoSpace(r)
    decreases |s|
  {
    if s == [] then []
    else if IsSpace(s[0]) then
      var rest := TrimStart(s[1..]);
      NoSpaceCons('_', CollapseSpaces(rest));
      "_" + CollapseSpaces(rest)
    else
      NoSpaceCons(s[0], CollapseSpaces(s[1..]));
      [s[0]] + CollapseSpaces(s[1..])
  }

  lemma NoSpaceCons(c: char, r: string)
    requires !IsSpace(c) && NoSpace(r)
    ensures NoSpace([c] + r)
  {
  }

  /** `re.sub(r"[^a-z0-9_]", "", s)`: keeps exactly the name characters, in order. */
  function KeepNameChars(s: string): (r: string)
    ensures AllNameChars(r)
    ensures |r| <= |s|
    ensures AllNameChars(s) ==> r == s
  {
    if s == [] then []
    else if IsNameChar(s[0]) then [s[0]] + KeepNameChars(s[1..])
    else KeepNameChars(s[1..])
  }

  /** `re.sub(r"\D", "", s)`: keeps exactly the decimal digits, in order. */
  function Digits(s: string): string
  {
    if s == [] then []
    else if IsDigit(s[0]) then [s[0]] + Digits(s[1..])
    else Digits(s[1..])
  }

  /** Digits keeps only digits, and no more characters than it was given. */
  lemma {:induction false} DigitsAreDigits(s: string)
    ensures AllDigits(Digits(s)) && |Digits(s)| <= |s|
  {
    if s != [] {
      DigitsAreDigits(s[1..]);
    }
  }

  /** A string of digits is kept whole. */
  lemma {:induction false} DigitsOfDigits(s: string)
    requires AllDigits(s)
    ensures Digits(s) == s
  {
    if s != [] {
      DigitsOfDigits(s[1..]);
    }
  }

  /** A string without digits has no digits to keep. */
  lemma {:induction false} DigitsOfNonDigits(s: string)
    requires forall k :: 0 <= k < |s| ==> !IsDigit(s[k])
    ensures Digits(s) == []
  {
    if s != [] {
      DigitsOfNonDigits(s[1..]);
    }
  }

  /** A prefix without whitespace passes through CollapseSpaces unchanged; in particular a
      string without whitespace is left as it is. */
  lemma {:induction false} CollapseSpacesAppend(a: string, t: string)
    requires NoSpace(a)
    ensures CollapseSpaces(a + t) == a + CollapseSpaces(t)
    ensures CollapseSpaces(a) == a
  {
    if a != [] {
      assert (a + t)[0] == a[0] && (a + t)[1..] == a[1..] + t;
      CollapseSpacesAppend(a[1..], t);
    } else {
      assert a + t == t;
    }
  }

  /** A blank before a word becomes an underscore. */
  lemma CollapseLeadingSpace(b: string)
    requires NoSpace(b)
    ensures CollapseSpaces([' '] + b) == "_" + b
  {
    var t := [' '] + b;
    assert t[0] == ' ' && IsSpace(t[0]) && t[1..] == b;
    assert TrimStart(b) == b by {
      if b != [] {
        assert !IsSpace(b[0]);
      }
    }
    CollapseSpacesAppend(b, []);
  }

  lemma CollapseSpaceJoin(a: string, b: string)
    requires NoSpace(a) && NoSpace(b)
    ensures CollapseSpaces(a + ([' '] + b)) == a + ("_" + b)
  {
    CollapseLeadingSpace(b);
    CollapseSpacesAppend(a, [' '] + b);
  }

  /** One blank between two words becomes one underscore. */
  lemma CollapseOneSpace(a: string, b: string)
    requires NoSpace(a) && NoSpace(b)
    ensures CollapseSpaces(a + " " + b) == a + "_" + b
  {
    CollapseSpaceJoin(a, b);
    assert a + " " + b == a + ([' '] + b);
    assert a + "_" + b == a + ("_" + b);
  }

  /** Every character of `w` is whitespace. */
  predicate AllSpace(w: string) {
    forall k :: 0 <= k < |w| ==> IsSpace(w[k])
  }

  /** TrimStart removes a whole run of whitespace and stops at the next character. */
  lemma {:induction false} TrimStartRun(w: string, b: string)
    requires AllSpace(w) && (b == [] || !IsSpace(b[0]))
    ensures TrimStart(w + b) == b
  {
    if w != [] {
      assert (w + b)[0] == w[0] && (w + b)[1..] == w[1..] + b;
      TrimStartRun(w[1..], b);
    } else {
      assert w + b == b;
    }
  }

  /** A leading run of whitespace becomes a single underscore. */
  lemma CollapseLeadingRun(w: string, b: string)
    requires w != [] && AllSpace(w) && (b == [] || !IsSpace(b[0]))
    ensures CollapseSpaces(w + b) == "_" + CollapseSpaces(b)
  {
    var t := w + b;
    assert t[0] == w[0] && IsSpace(t[0]) && t[1..] == w[1..] + b;
    TrimStartRun(w[1..], b);
  }

  lemma CollapseRunJoin(a: string, w: string, b: string)
    requires NoSpace(a) && w != [] && AllSpace(w) && (b == [] || !IsSpace(b[0]))
    ensures CollapseSpaces(a + (w + b)) == a + ("_" + CollapseSpaces(b))
  {
    CollapseLeadingRun(w, b);
    CollapseSpacesAppend(a, w + b);
  }

  /** A maximal run of whitespace after a word becomes one underscore, and the
      rest of the string is collapsed in turn. */
  lemma CollapseRun(a: string, w: string, b: string)
    requires NoSpace(a) && w != [] && AllSpace(w) && (b == [] || !IsSpace(b[0]))
    ensures CollapseSpaces(a + w + b) == a + "_" + CollapseSpaces(b)
  {
    CollapseRunJoin(a, w, b);
    assert a + w + b == a + (w + b);
    assert a + "_" + CollapseSpaces(b) == a + ("_" + CollapseSpaces(b));
  }

  /** A single character is kept exactly when it is a name character. */
  lemma KeepNameCharsOne(c: char)
    ensures KeepNameChars([c]) == if IsNameChar(c) then [c] else []
  {
    assert [c][1..] == [];
  }

  /** Removing the non-name characters commutes with concatenation. */
  lemma {:induction false} KeepNameCharsAppend(a: string, b: string)
    ensures KeepNameChars(a + b) == KeepNameChars(a) + KeepNameChars(b)
  {
    if a != [] {
      assert (a + b)[0] == a[0] && (a + b)[1..] == a[1..] + b;
      KeepNameCharsAppend(a[1..], b);
    } else {
      assert a + b == b;
    }
  }

  /** Removing the non-digits commutes with concatenation. */
  lemma {:induction false} DigitsAppend(a: string, b: string)
    ensures Digits(a + b) == Digits(a) + Digits(b)
  {
    if a != [] {
      assert (a + b)[1..] == a[1..] + b;
      DigitsAppend(a[1..], b);
    } else {
      assert a + b == b;
    }
  }

  predicate IsPrefix(k: string, s: string) {
    |k| <= |s| && s[..|k|] == k
  }

  /** Python's substring test `k in s`. */
  predicate Contains(s: string, k: string)
    decreases |s|
  {
    IsPrefix(k, s) || (s != [] && Contains(s[1..], k))
  }

  /** k occurs in s starting at position i. */
  predicate OccursAt(s: string, k: string, i: int) {
    0 <= i <= |s| - |k| && s[i..i + |k|] == k
  }

  /** A slice of s starting after its first character is the shifted slice of s[1..]. */
  lemma SliceOfTail(s: string, i: nat, n: nat)
    requires 1 <= i && i + n <= |s|
    ensures s[i..i + n] == s[1..][i - 1..i - 1 + n]
  {
  }

  /** An occurrence of k at position i means s contains k. */
  lemma {:induction false} OccursContains(s: string, k: string, i: nat)
    requires OccursAt(s, k, i)
    ensures Contains(s, k)
    decreases i
  {
    if i == 0 {
      assert IsPrefix(k, s);
    } else {
      SliceOfTail(s, i, |k|);
      assert OccursAt(s[1..], k, i - 1);
      OccursContains(s[1..], k, i - 1);
    }
  }

  /** When s contains k, k occurs at some position of s. */
  lemma {:induction false} ContainsOccurs(s: string, k: string)
    requires Contains(s, k)
    ensures exists i :: OccursAt(s, k, i)
    decreases |s|
  {
    if IsPrefix(k, s) {
      assert OccursAt(s, k, 0);
    } else {
      ContainsOccurs(s[1..], k);
      var i :| OccursAt(s[1..], k, i);
      SliceOfTail(s, i + 1, |k|);
      assert OccursAt(s, k, i + 1);
    }
  }

  /** Contains holds exactly when k occurs in s at some position. */
  lemma ContainsAt(s: string, k: string)
    ensures Contains(s, k) <==> exists i :: OccursAt(s, k, i)
  {
    if Contains(s, k) {
      ContainsOccurs(s, k);
    }
    forall i | OccursAt(s, k, i) ensures Contains(s, k) {
      OccursContains(s, k, i);
    }
  }

  /** A string lacking one of k's characters does not contain k. */
  lemma AbsentCharNotContained(s: string, k: string, c: char)
    requires c in k && c !in s
    ensures !Contains(s, k)
  {
    ContainsAt(s, k);
  }

  /** `any(k in s for k in keywords)`. */
  predicate ContainsAny(s: string, keywords: seq<string>) {
    exists i :: 0 <= i < |keywords| && Contains(s, keywords[i])
  }
}

=== FILE: tables.dfy ===
/**
 * The in-memory table the pipeline cleans: named columns of cells, all of one length,
 * each column tagged with the kind of values it holds (the role pandas' dtype plays).
 */
module Tables {
  import opened Wrappers

  /** A cell: pandas' NaN/NaT/<NA> marker, a string, a number, or a timestamp
      (nanoseconds since the epoch, as pandas stores it). */
  datatype Cell = Missing | Text(s: string) | Num(x: real) | Date(t: int)

  /** The column kinds the pipeline dispatches on: object/string, int64/float64, datetime64. */
  datatype Kind = TextKind | NumKind | DateKind

  datatype Column = Column(name: string, kind: Kind, cells: seq<Cell>)

  /**
   * The library conversions the pipeline calls but whose insides are not modelled:
   * `pd.to_numeric` and `pd.to_datetime` on a string (None when coercion fails), `pd.to_datetime`
   * on a number, and `str()` of a number and of a timestamp.
   */
  datatype Lib = Lib(
    toNumeric: string -> Option<real>,
    toDatetime: string -> Option<int>,
    numToDatetime: real -> Option<int>,
    numStr: real -> string,
    dateStr: int -> string)

  /** A cell belongs in a column of the given kind: missing, or a value of that kind. */
  predicate Fits(k: Kind, c: Cell) {
    c == Missing ||
    match k
    case TextKind => c.Text?
    case NumKind => c.Num?
    case DateKind => c.Date?
  }

  predicate ColumnFits(col: Column) {
    forall i :: 0 <= i < |col.cells| ==> Fits(col.kind, col.cells[i])
  }

  /** Every column has `rows` cells, each fitting its column's kind. */
  predicate TableValid(cols: seq<Column>, rows: nat) {
    forall j :: 0 <= j < |cols| ==> |cols[j].cells| == rows && ColumnFits(cols[j])
  }

  function Names(cols: seq<Column>): (r: seq<string>)
    ensures |r| == |cols|
    ensures forall j :: 0 <= j < |cols| ==> r[j] == cols[j].name
  {
    seq(|cols|, j requires 0 <= j < |cols| => cols[j].name)
  }

  /** Position of the column `df[name]` selects: the first one carrying that name. */
  function IndexOf(names: seq<string>, name: string): (j: nat)
    requires name in names
    ensures j < |names| && names[j] == name
    ensures forall k :: 0 <= k < j ==> names[k] != name
  {
    if names[0] == name then 0 else 1 + IndexOf(names[1..], name)
  }

  /** Row i of the table: the i-th cell of every column. */
  function Row(cols: seq<Column>, rows: nat, i: nat): (r: seq<Cell>)
    requires TableValid(cols, rows) && i < rows
    ensures |r| == |cols|
    ensures forall j :: 0 <= j < |cols| ==> r[j] == cols[j].cells[i]
  {
    seq(|cols|, j requires 0 <= j < |cols| => cols[j].cells[i])
  }

  function Rows(cols: seq<Column>, rows: nat): (r: seq<seq<Cell>>)
    requires TableValid(cols, rows)
    ensures |r| == rows
    ensures forall i :: 0 <= i < rows ==> r[i] == Row(cols, rows, i)
  {
    seq(rows, i requires 0 <= i < rows => Row(cols, rows, i))
  }

  /** `str(x)` / `.astype("string")` of a present cell. */
  function Str(lib: Lib, c: Cell): string
    requires c != Missing
  {
    match c
    case Text(s) => s
    case Num(x) => lib.numStr(x)
    case Date(t) => lib.dateStr(t)
  }

  /** `pd.to_numeric(..., errors="coerce")` on one cell: a failed coercion gives Missing;
      a timestamp is read as its nanosecond count. */
  function ToNumeric(lib: Lib, c: Cell): (r: Cell)
    ensures Fits(NumKind, r)
    ensures c == Missing ==> r == Missing
    ensures c.Num? ==> r == c
    ensures c.Text? ==> (r.Num? <==> lib.toNumeric(c.s).Some?)
    ensures c.Text? && r.Num? ==> r.x == lib.toNumeric(c.s).value
    ensures c.Date? ==> r == Num(c.t as real)
  {
    match c
    case Missing => Missing
    case Text(s) => (match lib.toNumeric(s) case Some(x) => Num(x) case None => Missing)
    case Num(x) => c
    case Date(t) => Num(t as real)
  }

  /** `pd.to_datetime(..., errors="coerce")` on one cell: a failed parse gives Missing. */
  function ToDatetime(lib: Lib, c: Cell): (r: Cell)
    ensures Fits(DateKind, r)
    ensures c == Missing ==> r == Missing
    ensures c.Date? ==> r == c
    ensures c.Text? ==> (r.Date? <==> lib.toDatetime(c.s).Some?)
    ensures c.Text? && r.Date? ==> r.t == lib.toDatetime(c.s).value
    ensures c.Num? ==> (r.Date? <==> lib.numToDatetime(c.x).Some?)
    ensures c.Num? && r.Date? ==> r.t == lib.numToDatetime(c.x).value
  {
    match c
    case Missing => Missing
    case Text(s) => (match lib.toDatetime(s) case Some(t) => Date(t) case None => Missing)
    case Num(x) => (match lib.numToDatetime(x) case Some(t) => Date(t) case None => Missing)
    case Date(t) => c
  }

  /** The numeric values of a column, in order (`series.dropna()` of a numeric column). */
  function NumValues(cells: seq<Cell>): (v: seq<real>)
    ensures |v| <= |cells|
    ensures (forall i :: 0 <= i < |cells| ==> Fits(NumKind, cells[i])) ==> |v| + MissingCount(cells) == |cells|
    ensures forall x :: x in v <==> Num(x) in cells
  {
    if cells == [] then []
    else (if cells[0].Num? then [cells[0].x] else []) + NumValues(cells[1..])
  }

  /** Each value is kept as many times as the column holds it. */
  lemma {:induction false} NumValuesCounts(cells: seq<Cell>, x: real)
    ensures multiset(NumValues(cells))[x] == multiset(cells)[Num(x)]
  {
    if cells != [] {
      assert cells == [cells[0]] + cells[1..];
      NumValuesCounts(cells[1..], x);
    }
  }

  /** Number of missing cells (`isna().sum()` of one column). */
  function MissingCount(cells: seq<Cell>): (n: nat)
    ensures n <= |cells|
    ensures n == 0 <==> forall i :: 0 <= i < |cells| ==> cells[i] != Missing
    ensures n == |cells| <==> forall i :: 0 <= i < |cells| ==> cells[i] == Missing
  {
    if cells == [] then 0
    else (if cells[0] == Missing then 1 else 0) + MissingCount(cells[1..])
  }

  /** The missing count is exactly the number of missing cells. */
  lemma {:induction false} MissingCountExact(cells: seq<Cell>)
    ensures MissingCount(cells) == multiset(cells)[Missing]
  {
    if cells != [] {
      assert cells == [cells[0]] + cells[1..];
      MissingCountExact(cells[1..]);
    }
  }
}

=== FILE: wrappers.dfy ===
/** Optional values: `None` stands for pandas' NaN/NaT/None result of a lookup or a parse. */
module Wrappers {
  datatype Option<+T> = None | Some(value: T)
}
